=== FILE: README.md ===
# ImageTest golden-image harness, modelled in Dafny

This project models `imagetest.cpp`, the regression harness that renders
Lottie animations (with rlottie) and SVG pictures (with ThorVG) at 100x100
pixels and either writes the renderings as baseline PNG files or compares
fresh renderings byte for byte with those baselines.

The model covers:

- the two file classifiers (`jsonFile`, `svgFile`) and the directory listing
  `ExtractFiles`;
- `Utils::basename` and the baseline file names built from it;
- the pixel-format normaliser `Utils::ARGBPremulToRGBA`, as an in-place
  array loop;
- Lottie baseline generation and the per-frame test;
- SVG baseline generation and the SVG test, including its write-before-read
  behaviour;
- `ArgParser` and `testMode`;
- the summary counters and the flow of `main`.

The modules and what each one covers:

| module | file | models |
|---|---|---|
| `Base` | base.dfy | `Option`, `uint8`, the byte and 32-bit ranges |
| `Text` | text.dfy | `strrchr` / `find_last_of`, and `%d` printing of a frame number |
| `Ordering` | ordering.dfy | `std::string` `operator<` and the `std::sort` of the listing |
| `Directory` | directory.dfy | `namespace Directory` |
| `Utils` | utils.dfy | `namespace Utils` |
| `Baseline` | baseline.dfy | the PNG store, the frame conversion and the baseline names |
| `LottieTest` | lottie.dfy | `class LottieTest` |
| `SvgTest` | svg.dfy | `class SVGTest` |
| `ArgParser` | args.dfy | `class ArgParser`, `enum class TestMode` |
| `Report` | report.dfy | the `Total / Passed / Failed` line |
| `ImageTest` | imagetest.dfy | `main` and the two test-class constructors |

The outside world becomes parameters:

- **Directory listings.** A directory stream is the list of entry names it
  yields, or `None` when `opendir` fails.
- **rlottie.** A `Player` holds two functions: `load` gives a file's frame
  count, or `None` when the file cannot be loaded; `render` gives a frame's
  premultiplied buffer.
- **ThorVG.** A `Canvas` holds two functions: `load` says whether
  `Picture::load` succeeds; `draw` gives the canvas buffer after
  push/draw/sync.
- **PNG files.** The baseline directories form one map from file name to the
  decoded image (width, height, channel count, pixels). `stbi_write_png` of a
  100x100 four-channel buffer is a map update, so reading it back gives
  exactly the pixels written (a lossless codec is assumed). A missing name
  stands for `stbi_load` returning null. A stored image always holds
  `width * height * 4` bytes, as `stbi_load` with four requested channels
  returns.

The SVG test does not run the pixel-format conversion.
`SVGTest::GenerateBaselineImage` and `SVGTest::TestAgainstBaselineImage`
(imagetest.cpp:255-300) never call `ARGBPremulToRGBA`. The canvas already
draws in `ABGR8888` (imagetest.cpp:222), so the drawing is stored as drawn.

The SVG test writes the fresh drawing under the baseline name before loading
that name back (imagetest.cpp:288-295). The model reproduces this as written.
The contract of `SvgTest.Verify` and the lemma `SvgTest.VerdictIgnoresBaselines` state
the consequence: an SVG file fails its test exactly when it cannot be loaded,
whatever its baseline holds.

A Lottie file that cannot be loaded is reported as the frame list `[1]`
(imagetest.cpp:183). `LottieTest.LoadFailureLooksLikeFrameOne` shows that
this report cannot be told apart from a real failure of frame 1 alone.

## Model

| member | source | states |
|---|---|---|
| `Text.LastIndexIn` | imagetest.cpp:28 | `strrchr`: `None` when no character of the set occurs; otherwise a position holding one, with none of them after it |
| `Text.ParseDecimalOfDecimal` | imagetest.cpp:172 | the decimal text printed for a frame number reads back as that number |
| `Text.DecimalInjective` | imagetest.cpp:172 | different frame numbers print as different texts |
| `Directory.HasExtensionIff` | imagetest.cpp:26-38 | for a dot-free extension, a name is accepted iff it has at least one character, then a dot, then exactly the extension, at its end; the dot found is the last one and not the first character; the comparison is case-sensitive |
| `Directory.JsonFileIff` | imagetest.cpp:26-31 | `jsonFile` accepts exactly the names of 6 or more characters that end in `.json` |
| `Directory.SvgFileIff` | imagetest.cpp:33-38 | `svgFile` accepts exactly the names of 5 or more characters that end in `.svg` |
| `Directory.ClassifierExamples` | imagetest.cpp:26-38 | `a.json` is accepted; `.json`, `a.json.bak`, `.` and `..` are rejected; `..json` is accepted; `b.SVG` is rejected |
| `Directory.ExtractFiles` | imagetest.cpp:40-59 | an unopenable directory gives no paths; otherwise the result is sorted ascending by `std::string` order and is a permutation of the accepted entries, each prefixed with the directory name |
| `Directory.ExtractFilesMembers` | imagetest.cpp:49-52 | a path is listed iff it is the directory name followed by an accepted entry |
| `Directory.ExtractFilesIgnoresEntryOrder` | imagetest.cpp:49-56 | the listing is the same whatever order the directory stream yields the entries in |
| `Directory.ExtractFilesNoDuplicates` | imagetest.cpp:49-51 | a directory stream without repeated names lists no path twice |
| `Ordering.LessTrichotomous` | imagetest.cpp:56 | two different strings are ordered one way or the other, so the sort order is total |
| `Ordering.Sort` | imagetest.cpp:56 | the sorted list is ascending and a permutation of its input |
| `Ordering.SortedUnique` | imagetest.cpp:56 | two ascending permutations of the same list are equal, so the result of `std::sort` is determined |
| `Utils.Basename` | imagetest.cpp:74-77 | the result contains no `/` or `\`, is a suffix of the path, and is preceded by a separator whenever it is shorter than the path |
| `Utils.BasenameOfPlainName` | imagetest.cpp:74-77 | a path without separators is returned whole (`npos + 1` wraps to 0) |
| `Utils.BasenameOfAppended` | imagetest.cpp:74-77 | appending a separator-free entry to a path extends its base name by exactly that entry |
| `Utils.BasenameOfJoined` | imagetest.cpp:74-77 | a directory name ending in a separator followed by a separator-free entry gives back the entry |
| `Utils.BasenameExamples` | imagetest.cpp:74-77 | `res/lottie/a.json` gives `a.json`; `C:\res\b.svg` gives `b.svg`; `dir/` gives the empty name |
| `Utils.Groups` | imagetest.cpp:83 | the loop visits every 4-byte group that starts below `totalBytes`: the visited bytes cover `totalBytes` and overshoot by less than 4 |
| `Utils.UnpremultiplyNoWrap` | imagetest.cpp:92-94 | for a channel no greater than its alpha, the byte stored is exactly `channel * 255 / alpha`, with no wrap |
| `Utils.UnpremultiplyFull` | imagetest.cpp:92-94 | a channel equal to its alpha becomes 255 |
| `Utils.UnpremultiplyExample` | imagetest.cpp:92 | channel 64 at alpha 128 becomes 127, by truncating division |
| `Utils.UnpremultiplyWrapExample` | imagetest.cpp:92-98 | a channel above its alpha overflows: 129 at alpha 128 gives 256, and the `unsigned char` store wraps it to 0 |
| `Utils.ARGBPremulToRGBA` | imagetest.cpp:78-107 | the in-place loop leaves the buffer equal to the group-by-group normalisation of its old contents up to `height * bytesPerLine` (truncated to 32 bits) |
| `Utils.NormalizeGroupOf` | imagetest.cpp:83-106 | each group starting below `totalBytes` is replaced by its normalised form; every later group is left as it was |
| `Utils.NormalizeKeepsAlpha` | imagetest.cpp:84-104 | the alpha byte of every group is never written |
| `Utils.NormalizeKeepsTail` | imagetest.cpp:81-83 | no byte after the last visited group changes |
| `Utils.NormalizeTransparent` | imagetest.cpp:84-86 | a group with alpha 0 is left completely unchanged |
| `Utils.NormalizeOpaque` | imagetest.cpp:100-104 | a visited group with alpha 255 has bytes 0 and 2 exchanged and bytes 1 and 3 kept |
| `Utils.NormalizeTranslucent` | imagetest.cpp:87-98 | a visited group with 0 < alpha < 255 becomes the un-premultiplied bytes 2, 1, 0 followed by the alpha |
| `Utils.NormalizeTwiceRestoresExtremes` | imagetest.cpp:84-104 | running the conversion twice restores every group with alpha 0 or 255 |
| `Utils.NormalizeTwiceChangesTranslucent` | imagetest.cpp:91-98 | on a translucent group a second run changes the bytes again: grey 64 at alpha 128 becomes 127, then 253 |
| `Baseline.WritePng` | imagetest.cpp:175 | the written name holds a 100x100 four-channel image of the frame; no other name changes |
| `Baseline.MatchIff` | imagetest.cpp:198-201 | a baseline passes iff it exists, is 100x100, has 4 channels and holds exactly the frame's bytes |
| `Baseline.WrittenMatches` | imagetest.cpp:175-201 | a baseline just written for a frame matches that frame |
| `Baseline.ConvertedPixel` | imagetest.cpp:167-170 | the whole 100x100 frame is converted: every pixel keeps its alpha and every opaque pixel is swizzled |
| `Baseline.LottieKeyExample` | imagetest.cpp:172-173 | frame 12 of `res/a.json` is stored as `<dir>a.json.12.png` |
| `Baseline.LottieKeyInjective` | imagetest.cpp:172-173 | a Lottie baseline name determines the base name and the frame number it was built from |
| `Baseline.FrameSuffixInjective` | imagetest.cpp:172 | the `.<frame>.png` suffix can be split off again, recovering both the name before it and the frame number |
| `Baseline.SvgKeyExample` | imagetest.cpp:269 | `svg/b.svg` is stored as `<dir>b.svg.png` |
| `Baseline.SvgKeyInjective` | imagetest.cpp:269-288 | an SVG baseline name determines the base name it was built from |
| `LottieTest.Generate` | imagetest.cpp:159-160 | an animation that fails to load leaves every baseline unchanged |
| `LottieTest.GenerateStoresFrame` | imagetest.cpp:162-176 | after generation, every frame of a loaded animation has a matching baseline under its own name |
| `LottieTest.GenerateElsewhere` | imagetest.cpp:165-176 | generation touches no name other than the baseline names of the frames below the frame count; the baselines of higher frame numbers, left over from a longer animation, survive |
| `LottieTest.Failing` | imagetest.cpp:188-204 | the reported frames are strictly increasing, lie in the scanned range, and are exactly the frames whose test fails |
| `LottieTest.Verify` | imagetest.cpp:179-208 | a load failure gives `[1]`; otherwise the result is strictly increasing, below the frame count, and contains frame i iff its baseline is missing, not 100x100, not 4-channel or different in bytes |
| `LottieTest.MissingBaselineFails` | imagetest.cpp:199-203 | a frame whose baseline was never written is reported |
| `LottieTest.WrongSizeFails` | imagetest.cpp:201-203 | a baseline of the wrong width is reported whatever its pixels |
| `LottieTest.LoadFailureLooksLikeFrameOne` | imagetest.cpp:182-203 | a run in which only frame 1 mismatches reports the same list as an animation that fails to load |
| `LottieTest.VerifyWithoutBaselines` | imagetest.cpp:179-208 | with no baselines an animation passes iff it loads and has no frames; one that fails to load fails, and so does one with a frame |
| `LottieTest.GenerateThenVerify` | imagetest.cpp:157-208 | generating then testing an animation that loads reports no failing frame |
| `LottieTest.GenerateKeepsOtherVerdicts` | imagetest.cpp:172-196 | generating one animation's baselines does not change the verdict on an animation with another base name |
| `LottieTest.GenerateAllThenVerify` | imagetest.cpp:129-208 | after the generation loop, every listed animation that loads passes, if no two listed files share a base name |
| `LottieTest.TestFailures` | imagetest.cpp:139-143 | a listed animation counts as failed exactly when its frame list is non-empty |
| `SvgTest.Generate` | imagetest.cpp:255-272 | a file that fails to load changes nothing; otherwise its baseline matches the drawing; no other name changes |
| `SvgTest.Verify` | imagetest.cpp:274-301 | the test passes exactly when the file loads, because it compares the drawing with the copy it has just written over the baseline; a file that fails to load fails and changes nothing |
| `SvgTest.MissingBaselinePasses` | imagetest.cpp:288-300 | a loadable file passes even when no baseline was ever generated |
| `SvgTest.VerdictIgnoresBaselines` | imagetest.cpp:288-300 | the verdict is the same whatever the baseline directory holds |
| `SvgTest.VerifyOverwritesBaseline` | imagetest.cpp:288-290 | testing leaves the baselines exactly as generating would, so it rewrites the file's own baseline and no other name |
| `SvgTest.GenerateThenVerify` | imagetest.cpp:255-300 | generating then testing a file that loads passes |
| `SvgTest.TestAll` | imagetest.cpp:240-250 | the test loop flags a file as failed exactly when it cannot be loaded |
| `SvgTest.TestAllRewritesBaselines` | imagetest.cpp:240-250 | the test loop leaves the baseline directory exactly as the generation loop would, since every test of a loadable file rewrites its baseline |
| `SvgTest.GenerateAllOverrides` | imagetest.cpp:229-235 | the generation loop overrides the store with each loadable file's drawing under its key, a later file winning a shared key, and leaves every other baseline untouched |
| `SvgTest.GenerateAllTwice` | imagetest.cpp:229-235 | running the generation loop again over the same files changes no baseline, so generating before testing leaves the same baselines as testing alone |
| `ArgParser.ScanEnd` | imagetest.cpp:319-324 | the scan stops at the first help option, or at the end of the list if there is none |
| `ArgParser.ScanFlags` | imagetest.cpp:318-330 | the help flag is raised iff a help option occurs; `-g` and `-t` are raised iff they occur before the first help option |
| `ArgParser.ParseHelpIff` | imagetest.cpp:313-324 | usage is requested iff there are no arguments or some argument is `-h` or `--help` |
| `ArgParser.ParseIgnoresAfterHelp` | imagetest.cpp:322-324 | arguments after the first help option have no effect |
| `ArgParser.Mode` | imagetest.cpp:333-340 | `Both` iff both flags are set, `Generate` iff only `-g` is set, `Test` iff `-g` is not set |
| `ArgParser.ModeOfArguments` | imagetest.cpp:318-340 | without a help option the mode is `Both` iff `-g` and `-t` both occur, `Generate` iff only `-g` occurs, and `Test` otherwise, including when only unknown options are given |
| `ArgParser.ParseExamples` | imagetest.cpp:311-340 | no argument gives usage; `-g -t` gives `Both`; `-g -x` gives `Generate`; `lottie` gives `Test`; `-t -h -g` gives usage with only the test flag set |
| `Report.CountFailed` | imagetest.cpp:126-143 | the failure counter never exceeds the number of files |
| `Report.CountFailedAppend` | imagetest.cpp:139-143 | counting over two runs of files adds the counts |
| `Report.CountFailedZero` | imagetest.cpp:139-143 | the counter stays 0 iff no file failed |
| `Report.CountFailedAll` | imagetest.cpp:139-143 | when every file fails, every file is counted |
| `Report.Summarize` | imagetest.cpp:154 | the total is the number of files and the failures are the counted ones; the `size_t` subtraction for `Passed` never wraps, so passed plus failed is the total |
| `Report.SummarizeAllPass` | imagetest.cpp:154 | no failure is reported iff no file failed, and then every file passed |
| `ImageTest.RunLottie` | imagetest.cpp:121-156 | a summary is printed iff the mode tests; it covers every listed file; it reports no failure iff every listed animation's frame list is empty against the baselines the phase leaves; without generation no baseline changes |
| `ImageTest.RunSvg` | imagetest.cpp:217-253 | a summary is printed iff the mode tests; it covers every listed file; it reports no failure iff every listed file loads; in every mode, `Test` included, the phase leaves the baselines exactly as the generation loop would, because each test rewrites its file's baseline |
| `ImageTest.MainUsageIff` | imagetest.cpp:356-360 | the program only prints usage iff it has no arguments or a help option |
| `ImageTest.ListedBasenamesDistinct` | imagetest.cpp:49-77 | for any directory name and distinct, separator-free entries, no two listed files share a base name |
| `ImageTest.BackslashEntriesCollide` | imagetest.cpp:74-77 | under any directory name ending in `/`, a listing holding both `b.json` and `x\b.json` lists both files, and both have the base name `b.json`, so their baselines share names |
| `ImageTest.BothModeLottiePasses` | imagetest.cpp:125-154 | in `Both` mode, when the Lottie directory opens with distinct, separator-free entries and every listed animation loads, the Lottie phase reports no failure |
| `ImageTest.TestModeWithoutBaselines` | imagetest.cpp:137-251 | in `Test` mode with an empty baseline directory: the Lottie phase reports no failure iff every listed animation loads with no frames, and reports every file as failed when none loads with zero frames; the SVG phase reports no failure iff every listed SVG file loads |

## Left out

- `ImageTest.ListedBasenamesDistinct` and `ImageTest.BothModeLottiePasses`:
  both assume entries without `/` or `\`. A POSIX directory can hold a
  name with `\`, and then two animations can share a base name, as
  `ImageTest.BackslashEntriesCollide` shows. The later one in sort order
  then overwrites the earlier one's baselines, and the earlier one's test
  can fail.
- Rendering engines: rlottie's `loadFromFile`, `totalFrame` and
  `renderSync`, and ThorVG's `Picture::load`, `size`, `push`, `draw`,
  `sync`, `clear` and `target` are foreign code. They are the `Player` and
  `Canvas` parameters. Rendering is assumed to fill the whole buffer and to
  depend only on the file and frame. In particular the model does not keep
  the canvas buffer from one SVG file to the next, which matters when a draw
  fails.
- `tvg::Initializer::init` with `hardware_concurrency()` threads is engine
  start-up and internal concurrency. It does not affect the harness's
  decisions.
- The stb PNG codec is replaced by the lossless map store. The source ignores
  the result of `stbi_write_png`, so write failures are not modelled.
- `opendir`, `readdir` and `closedir` are replaced by the given entry list.
  `snprintf` into the 100-byte buffer is replaced by `Text.Decimal`; the
  longest possible suffix is far shorter than the buffer, so it never
  truncates.
- Frame numbers are unbounded naturals. The counter `auto i = 0u` is a 32-bit
  `unsigned`, compared against the `size_t` frame count; `%d` prints frames
  from 2^31 up as negative numbers, and the `vector<int>` result stores them
  as such; with 2^32 or more frames the loop would not end. Animations that
  large are not modelled.
- `FailedTestCase` is an `int` and would overflow past 2^31 - 1 failing
  files. Lists that long are not modelled.
- `Utils.ARGBPremulToRGBA`: its contract only relates the array after the
  loop to `Utils.Normalize` of the array before it. The per-pixel
  properties are stated and proved on `Utils.Normalize` by the `Normalize*`
  lemmas. The method requires the buffer to hold every group the loop
  visits; the C++ code reads and writes out of bounds otherwise.
- `Utils.ARGBPremulToRGBA`: the 32-bit loop counter `i += 4` would wrap
  around, and the loop would never end, when `totalBytes` exceeds
  2^32 - 4. The model stops after the last group below `totalBytes`. The
  harness only uses 40000 bytes.
- File names and arguments are sequences of characters without NUL. `strcmp`
  and `std::string` comparisons are modelled as character-by-character
  comparisons of those sequences by character code.
- Console output, the usage text, the always-zero exit code of `main`, the
  `unique_ptr` buffer ownership, and the `stbi_image_free` skipped on the SVG
  failure path are reporting and resource management only.

=== FILE: args.dfy ===
/**
  `class ArgParser` and `enum class TestMode` of imagetest.cpp: the command
  line decides whether usage is printed, and otherwise whether baselines
  are generated, tested, or both.

  The argument vector is the list of C strings `argv[0 .. argc-1]`, each
  modelled by its characters up to the terminating NUL.
 */
module ArgParser {

  datatype TestMode = Generate | Test | Both

  /** The three flags the constructor sets (`mHelp`, `mGenerate`, `mTest`). */
  datatype Options = Options(help: bool, generate: bool, test: bool)

  predicate IsHelp(option: string) {
    option == "--help" || option == "-h"
  }

  /**
    The scanning loop from `argv[index]` on: a help option sets the help
    flag and ends the scan, `-g` and `-t` set their flags, anything else is
    skipped.
   */
  function Scan(args: seq<string>, index: nat, opts: Options): Options
    decreases |args| - index
  {
    if index >= |args| then opts
    else if IsHelp(args[index]) then opts.(help := true)
    else if args[index] == "-g" then Scan(args, index + 1, opts.(generate := true))
    else if args[index] == "-t" then Scan(args, index + 1, opts.(test := true))
    else Scan(args, index + 1, opts)
  }

  /** `ArgParser(argc, argv)`: without arguments only usage is shown; otherwise `argv[1..]` is scanned. */
  function Parse(args: seq<string>): Options {
    if |args| < 2 then Options(true, false, false)
    else Scan(args, 1, Options(false, false, false))
  }

  /** `argv[i]` equals `option` for some `i` in `from .. to-1`. */
  predicate OccursIn(args: seq<string>, option: string, from: nat, to: nat) {
    exists i :: from <= i < to && i < |args| && args[i] == option
  }

  /** Some `argv[i]` with `i` in `from .. to-1` is a help option. */
  predicate HelpIn(args: seq<string>, from: nat, to: nat) {
    exists i :: from <= i < to && i < |args| && IsHelp(args[i])
  }

  /**
    The position where scanning from `index` stops: the first help option
    at or after `index`, or the end of the list.
   */
  function ScanEnd(args: seq<string>, index: nat): (e: nat)
    ensures e <= |args| && (index <= |args| ==> index <= e)
    ensures forall i :: index <= i < e ==> !IsHelp(args[i])
    ensures e < |args| ==> IsHelp(args[e])
    decreases |args| - index
  {
    if index >= |args| then |args|
    else if IsHelp(args[index]) then index
    else ScanEnd(args, index + 1)
  }

  /**
    What scanning computes: the help flag is raised exactly when a help
    option occurs, and `-g` / `-t` are raised exactly when they occur before
    the first help option (or were already raised).
   */
  lemma {:induction false} ScanFlags(args: seq<string>, index: nat, opts: Options)
    ensures Scan(args, index, opts).help <==> opts.help || HelpIn(args, index, |args|)
    ensures Scan(args, index, opts).generate <==> opts.generate || OccursIn(args, "-g", index, ScanEnd(args, index))
    ensures Scan(args, index, opts).test <==> opts.test || OccursIn(args, "-t", index, ScanEnd(args, index))
    decreases |args| - index
  {
    if index < |args| && !IsHelp(args[index]) {
      var next := if args[index] == "-g" then opts.(generate := true)
                  else if args[index] == "-t" then opts.(test := true)
                  else opts;
      ScanFlags(args, index + 1, next);
      OccursInStep(args, "-g", index, ScanEnd(args, index + 1));
      OccursInStep(args, "-t", index, ScanEnd(args, index + 1));
      HelpInStep(args, index, |args|);
    } else if index < |args| {
      assert HelpIn(args, index, |args|) by {
        assert IsHelp(args[index]);
      }
    }
  }

  lemma OccursInStep(args: seq<string>, option: string, index: nat, to: nat)
    requires index < |args| && index < to
    ensures OccursIn(args, option, index, to) <==> args[index] == option || OccursIn(args, option, index + 1, to)
  {
  }

  lemma HelpInStep(args: seq<string>, index: nat, to: nat)
    requires index < |args| && index < to
    ensures HelpIn(args, index, to) <==> IsHelp(args[index]) || HelpIn(args, index + 1, to)
  {
  }

  /** Usage is shown exactly when no argument is given or a help option is among the arguments. */
  lemma ParseHelpIff(args: seq<string>)
    ensures Parse(args).help <==> |args| < 2 || HelpIn(args, 1, |args|)
  {
    if |args| >= 2 {
      ScanFlags(args, 1, Options(false, false, false));
    }
  }

  /** `testMode()`: both flags give `Both`, `-g` alone gives `Generate`, anything else `Test`. */
  function Mode(opts: Options): (m: TestMode)
    ensures m == Both <==> opts.generate && opts.test
    ensures m == Generate <==> opts.generate && !opts.test
    ensures m == Test <==> !opts.generate
  {
    if opts.generate && opts.test then Both
    else if opts.generate then Generate
    else Test
  }

  /** Whether baselines are generated (`Generate` or `Both`). */
  predicate Generates(m: TestMode) {
    m == Generate || m == Both
  }

  /** Whether baselines are tested (`Test` or `Both`). */
  predicate Tests(m: TestMode) {
    m == Test || m == Both
  }

  /**
    When no help option is given, the mode is read off the whole argument
    list: `Both` exactly when `-g` and `-t` both occur, `Generate` when only
    `-g` does, and `Test` otherwise, including when only unknown options
    are given.
   */
  lemma ModeOfArguments(args: seq<string>)
    requires 2 <= |args| && !HelpIn(args, 1, |args|)
    ensures Mode(Parse(args)) == Both <==> OccursIn(args, "-g", 1, |args|) && OccursIn(args, "-t", 1, |args|)
    ensures Mode(Parse(args)) == Generate <==> OccursIn(args, "-g", 1, |args|) && !OccursIn(args, "-t", 1, |args|)
    ensures Mode(Parse(args)) == Test <==> !OccursIn(args, "-g", 1, |args|)
  {
    ScanFlags(args, 1, Options(false, false, false));
    NoHelpScansAll(args, 1);
  }

  lemma {:induction false} NoHelpScansAll(args: seq<string>, index: nat)
    requires index <= |args| && !HelpIn(args, index, |args|)
    ensures ScanEnd(args, index) == |args|
    decreases |args| - index
  {
    if index < |args| {
      HelpInStep(args, index, |args|);
      NoHelpScansAll(args, index + 1);
    }
  }

  /** Everything after the first help option is ignored. */
  lemma ParseIgnoresAfterHelp(program: string, before: seq<string>, help: string, after: seq<string>)
    requires IsHelp(help)
    ensures Parse([program] + before + [help] + after) == Parse([program] + before + [help])
    ensures Parse([program] + before + [help]).help
  {
    var front := [program] + before;
    assert [program] + before + [help] + after == front + [help] + after;
    assert [program] + before + [help] == front + [help];
    ScanPrefix(front, help, after, 1, Options(false, false, false));
    ParseHelpIff(front + [help]);
    assert HelpIn(front + [help], 1, |front| + 1) by {
      assert (front + [help])[|front|] == help;
    }
  }

  lemma {:induction false} ScanPrefix(before: seq<string>, help: string, after: seq<string>, index: nat, opts: Options)
    requires IsHelp(help) && index <= |before|
    ensures Scan(before + [help] + after, index, opts) == Scan(before + [help], index, opts)
    decreases |before| - index
  {
    var long, short := before + [help] + after, before + [help];
    assert long[index] == short[index];
    if index < |before| {
      var opts' := if IsHelp(long[index]) then opts
                   else if long[index] == "-g" then opts.(generate := true)
                   else if long[index] == "-t" then opts.(test := true)
                   else opts;
      ScanPrefix(before, help, after, index + 1, opts');
    }
  }

  lemma ParseExamples()
    ensures Parse(["imagetest"]).help
    ensures Mode(Parse(["imagetest", "-g", "-t"])) == Both
    ensures Mode(Parse(["imagetest", "-g", "-x"])) == Generate
    ensures Mode(Parse(["imagetest", "lottie"])) == Test && !Parse(["imagetest", "lottie"]).help
    ensures Parse(["imagetest", "-t", "-h", "-g"]) == Options(true, false, true)
  {
  }
}

=== FILE: base.dfy ===
/**
  Small shared vocabulary of the model: an optional value (the C++ code's
  null pointers and "not found" positions) and the unsigned byte type the
  pixel buffers are made of.
 */
module Base {

  /** A value that may be absent: a failed load, a missing file, npos. */
  datatype Option<+T> = None | Some(value: T)

  /** C++ `uint8_t` / `unsigned char`. */
  newtype uint8 = x: int | 0 <= x < 256

  /** The number of values an `unsigned char` can hold; stores wrap modulo it. */
  const ByteRange: nat := 256

  /** The number of values a `uint32_t` can hold. */
  const Uint32Range: nat := 0x1_0000_0000
}

=== FILE: baseline.dfy ===
/**
  The golden images on disk and the names they are kept under.

  The PNG codec (`stbi_write_png` / `stbi_load`) is replaced by a map from
  file name to the decoded image: writing a 100x100 RGBA buffer stores it
  exactly, and loading a name that was never written finds nothing. This is
  the lossless-codec assumption under which the harness is meaningful.
 */
module Baseline {
  import opened Base
  import opened Text
  import opened Utils

  /** Every frame and every picture is rendered at `ImageWidth` x `ImageHeight`. */
  const ImageWidth: nat := 100
  const ImageHeight: nat := 100
  /** Four bytes per pixel; the row stride handed to the renderers is `ImageWidth * 4`. */
  const BytesPerLine: nat := ImageWidth * 4
  const FrameBytes: nat := ImageHeight * BytesPerLine

  /** A rendered 100x100 four-channel buffer, as held in `mBuffer`. */
  type Frame = s: seq<uint8> | |s| == FrameBytes witness seq(FrameBytes, _ => 0)

  /**
    What `stbi_load(name, &iw, &ih, &channels, 4)` reports for a stored
    file: its size, the channel count recorded in the file, and the pixel
    data converted to four channels.
   */
  datatype Image = Image(width: nat, height: nat, channels: nat, pixels: seq<uint8>)

  /** An image as `stbi_load` with four requested channels hands it back: `width * height * 4` bytes. */
  type Decoded = im: Image | |im.pixels| == im.width * im.height * 4 witness Image(0, 0, 4, [])

  type Store = map<string, Decoded>

  /** `stbi_write_png(name, w, h, 4, buffer, w * 4)` of a frame, read back losslessly. */
  function WritePng(store: Store, name: string, frame: Frame): (r: Store)
    ensures name in r && r[name] == Image(ImageWidth, ImageHeight, 4, frame)
    ensures forall other :: other != name ==> (other in r <==> other in store)
    ensures forall other :: other != name && other in store ==> r[other] == store[other]
  {
    store[name := Image(ImageWidth, ImageHeight, 4, frame)]
  }

  /**
    The failure test of both test routines: the baseline cannot be
    loaded, has the wrong size or channel count, or its bytes differ from
    the freshly rendered frame.
   */
  predicate Mismatch(store: Store, name: string, frame: Frame) {
    name !in store ||
    store[name].width != ImageWidth || store[name].height != ImageHeight ||
    store[name].channels != 4 ||
    store[name].pixels != frame
  }

  /** A baseline just written for a frame matches that frame. */
  lemma WrittenMatches(store: Store, name: string, frame: Frame)
    ensures !Mismatch(WritePng(store, name, frame), name, frame)
  {
  }

  /** A stored image matches a frame exactly when it is what writing that frame stores. */
  lemma MatchIff(store: Store, name: string, frame: Frame)
    ensures !Mismatch(store, name, frame) <==>
              name in store && store[name] == Image(ImageWidth, ImageHeight, 4, frame)
  {
  }

  /** Stores that agree on every name outside `names`. */
  ghost predicate AgreeOutside(a: Store, b: Store, names: set<string>) {
    forall n :: n !in names ==> (n in a <==> n in b) && (n in a ==> a[n] == b[n])
  }

  /**
    The frame a Lottie animation is compared as: the renderer's output,
    converted from premultiplied ARGB to RGBA over the `ImageHeight` rows
    of `BytesPerLine` bytes of the surface.
   */
  function Converted(rendered: Frame): Frame {
    Normalize(rendered, TotalBytes(ImageHeight, BytesPerLine))
  }

  /** The whole frame is visited: every pixel keeps its alpha and every opaque pixel is swizzled. */
  lemma ConvertedPixel(rendered: Frame, q: nat)
    requires q < FrameBytes / 4
    ensures Converted(rendered)[4 * q + 3] == rendered[4 * q + 3]
    ensures rendered[4 * q + 3] == 255 ==>
              Converted(rendered)[4 * q..4 * q + 4] ==
                [rendered[4 * q + 2], rendered[4 * q + 1], rendered[4 * q], 255]
  {
    var total := TotalBytes(ImageHeight, BytesPerLine);
    assert total == FrameBytes;
    NormalizeKeepsAlpha(rendered, total, q);
    if rendered[4 * q + 3] == 255 {
      NormalizeOpaque(rendered, total, q);
    }
  }

  /** The `".%d.png"` suffix of frame `i`. */
  function FrameSuffix(i: nat): string {
    "." + Decimal(i) + ".png"
  }

  /** `LOTTIE_BASELINE_DIR + basename(fileName) + ".<i>.png"`. */
  function LottieKey(baselineDir: string, fileName: string, i: nat): string {
    baselineDir + Basename(fileName) + FrameSuffix(i)
  }

  /** `SVG_BASELINE_DIR + basename(fileName) + ".png"`. */
  function SvgKey(baselineDir: string, fileName: string): string {
    baselineDir + Basename(fileName) + ".png"
  }

  lemma LottieKeyExample()
    ensures LottieKey("out/", "res/a.json", 12) == "out/a.json.12.png"
  {
    BasenameOfJoined("res/", "a.json");
    assert "res/" + "a.json" == "res/a.json";
    assert Decimal(12) == "12" by {
      assert Decimal(1) == "1";
    }
  }

  lemma SvgKeyExample()
    ensures SvgKey("out/", "svg/b.svg") == "out/b.svg.png"
  {
    BasenameOfJoined("svg/", "b.svg");
    assert "svg/" + "b.svg" == "svg/b.svg";
  }

  /**
    A Lottie baseline name determines the base name and the frame number it
    was built from: the frame number is the text between the last two dots
    of the name, and no decimal numeral contains a dot.
   */
  lemma LottieKeyInjective(dir: string, f: string, i: nat, g: string, j: nat)
    requires LottieKey(dir, f, i) == LottieKey(dir, g, j)
    ensures Basename(f) == Basename(g) && i == j
  {
    var a, b := Basename(f), Basename(g);
    FrameSuffixInjective(dir + a, i, dir + b, j);
    assert a == (dir + a)[|dir|..] && b == (dir + b)[|dir|..];
  }

  /** The frame suffix can be split off again: the name before it and the frame number are recovered. */
  lemma FrameSuffixInjective(p: string, i: nat, q: string, j: nat)
    requires p + FrameSuffix(i) == q + FrameSuffix(j)
    ensures p == q && i == j
  {
    var x := p + "." + Decimal(i);
    var y := q + "." + Decimal(j);
    assert p + FrameSuffix(i) == x + ".png";
    assert q + FrameSuffix(j) == y + ".png";
    SameSuffixCancels(x, y, ".png");
    NumberedSplit(p, i);
    NumberedSplit(q, j);
    DecimalInjective(i, j);
  }

  lemma SameSuffixCancels(x: string, y: string, suffix: string)
    requires x + suffix == y + suffix
    ensures x == y
  {
    assert x == (x + suffix)[..|x|];
    assert y == (y + suffix)[..|y|];
  }

  /** In `p + "." + Decimal(i)` the last dot is the one after `p`. */
  lemma NumberedSplit(p: string, i: nat)
    ensures LastIndexIn(p + "." + Decimal(i), {'.'}) == Some(|p|)
    ensures (p + "." + Decimal(i))[..|p|] == p && (p + "." + Decimal(i))[|p| + 1..] == Decimal(i)
  {
    var d := Decimal(i);
    forall n | 0 <= n < |d|
      ensures d[n] !in {'.'}
    {
      assert IsDigit(d[n]);
    }
    var s := p + "." + d;
    assert s == p + ['.'] + d;
    LastIndexInSplit(p, '.', d, {'.'});
    var k := |p|;
    assert s[..k] == p;
    assert s[k + 1..] == d;
  }

  /** An SVG baseline name determines the base name it was built from. */
  lemma SvgKeyInjective(dir: string, f: string, g: string)
    requires SvgKey(dir, f) == SvgKey(dir, g)
    ensures Basename(f) == Basename(g)
  {
    var x := SvgKey(dir, f);
    assert Basename(f) == x[|dir|..|x| - 4];
  }
}

=== FILE: directory.dfy ===
/**
  The resource locator (`namespace Directory` of imagetest.cpp): the two
  file-name classifiers and the directory scan that keeps the accepted
  entries, prefixes them with the directory name and sorts them.

  The operating system's directory stream is replaced by the list of entry
  names it would yield, or `None` when the directory cannot be opened.
 */
module Directory {
  import opened Base
  import opened Text
  import opened Ordering

  /**
    The common test of `jsonFile` and `svgFile`: the name has a `.` that is
    not its first character, and the text after the LAST `.` is exactly
    `ext` (compared case-sensitively, as `strcmp` does).
   */
  predicate HasExtension(filename: string, ext: string) {
    match LastIndexIn(filename, {'.'})
    case None => false
    case Some(dot) => dot != 0 && filename[dot + 1..] == ext
  }

  predicate JsonFile(filename: string) {
    HasExtension(filename, "json")
  }

  predicate SvgFile(filename: string) {
    HasExtension(filename, "svg")
  }

  predicate DotFree(s: string) {
    forall i :: 0 <= i < |s| ==> s[i] != '.'
  }

  /**
    For an extension without a dot, the classifier accepts exactly the
    names that end in `"." + ext` with at least one character before the dot.
   */
  lemma HasExtensionIff(filename: string, ext: string)
    requires DotFree(ext)
    ensures HasExtension(filename, ext) <==>
              |filename| >= |ext| + 2 && filename[|filename| - |ext| - 1..] == "." + ext
  {
    var n := |filename|;
    if |filename| >= |ext| + 2 && filename[n - |ext| - 1..] == "." + ext {
      var k := n - |ext| - 1;
      assert filename[k] == ("." + ext)[0];
      forall i | k < i < n
        ensures filename[i] !in {'.'}
      {
        assert filename[i] == ("." + ext)[i - k];
      }
      LastIndexInUnique(filename, {'.'}, k);
      assert filename[k + 1..] == ("." + ext)[1..];
    }
    if HasExtension(filename, ext) {
      var dot := LastIndexIn(filename, {'.'}).value;
      assert filename[dot..] == [filename[dot]] + filename[dot + 1..];
    }
  }

  lemma JsonFileIff(filename: string)
    ensures JsonFile(filename) <==> |filename| >= 6 && filename[|filename| - 5..] == ".json"
  {
    HasExtensionIff(filename, "json");
  }

  lemma SvgFileIff(filename: string)
    ensures SvgFile(filename) <==> |filename| >= 5 && filename[|filename| - 4..] == ".svg"
  {
    HasExtensionIff(filename, "svg");
  }

  /** The boundary cases: a hidden file, a second extension, the `.` and `..` entries, letter case. */
  lemma ClassifierExamples()
    ensures JsonFile("a.json") && !JsonFile(".json") && !JsonFile("a.json.bak")
    ensures !JsonFile(".") && !JsonFile("..") && JsonFile("..json")
    ensures SvgFile("b.svg") && !SvgFile(".svg") && !SvgFile("b.SVG") && !SvgFile("b.json")
  {
    JsonFileIff("a.json");
    JsonFileIff(".json");
    JsonFileIff("a.json.bak");
    JsonFileIff(".");
    JsonFileIff("..");
    JsonFileIff("..json");
    SvgFileIff("b.svg");
    SvgFileIff(".svg");
    SvgFileIff("b.SVG");
    SvgFileIff("b.json");
  }

  /** The entries the scan keeps, each prefixed with the directory name, in directory-stream order. */
  function Kept(dirName: string, names: seq<string>, filter: string -> bool): (r: seq<string>)
    ensures |r| <= |names|
    decreases |names|
  {
    if |names| == 0 then []
    else (if filter(names[0]) then [dirName + names[0]] else []) + Kept(dirName, names[1..], filter)
  }

  lemma {:induction false} KeptMembers(dirName: string, names: seq<string>, filter: string -> bool, p: string)
    ensures p in Kept(dirName, names, filter) <==> exists n :: n in names && filter(n) && p == dirName + n
    decreases |names|
  {
    if |names| > 0 {
      KeptMembers(dirName, names[1..], filter, p);
      assert names == [names[0]] + names[1..];
    }
  }

  lemma {:induction false} KeptAppend(dirName: string, a: seq<string>, b: seq<string>, filter: string -> bool)
    ensures Kept(dirName, a + b, filter) == Kept(dirName, a, filter) + Kept(dirName, b, filter)
    decreases |a|
  {
    if |a| > 0 {
      assert (a + b)[1..] == a[1..] + b;
      KeptAppend(dirName, a[1..], b, filter);
    } else {
      assert a + b == b;
    }
  }

  /** Rearranging the entries rearranges the kept paths. */
  lemma {:induction false} KeptPermutation(dirName: string, a: seq<string>, b: seq<string>, filter: string -> bool)
    requires multiset(a) == multiset(b)
    ensures multiset(Kept(dirName, a, filter)) == multiset(Kept(dirName, b, filter))
    decreases |a|
  {
    assert |a| == |multiset(a)| == |multiset(b)| == |b|;
    if |a| > 0 {
      var x := a[0];
      assert x in multiset(b);
      var k :| 0 <= k < |b| && b[k] == x;
      var front, back := b[..k], b[k + 1..];
      assert b == (front + [x]) + back;
      assert a == [x] + a[1..];
      assert multiset(a[1..]) == multiset(front + back) by {
        assert multiset(a[1..]) == multiset(a) - multiset{x};
        assert multiset(front + back) == multiset(b) - multiset{x};
      }
      KeptPermutation(dirName, a[1..], front + back, filter);
      KeptAppend(dirName, [x], a[1..], filter);
      KeptAppend(dirName, front, back, filter);
      KeptAppend(dirName, front + [x], back, filter);
      KeptAppend(dirName, front, [x], filter);
      MultisetRegroup(Kept(dirName, [x], filter), Kept(dirName, a[1..], filter),
                      Kept(dirName, front, filter), Kept(dirName, back, filter));
    }
  }

  lemma MultisetRegroup(x: seq<string>, rest: seq<string>, front: seq<string>, back: seq<string>)
    requires multiset(rest) == multiset(front + back)
    ensures multiset(x + rest) == multiset(front + x + back)
  {
  }

  /**
    `ExtractFiles`: every accepted entry, prefixed with `dirName`, in
    ascending `std::string` order; an unopenable directory gives no paths.
   */
  function ExtractFiles(dirName: string, entries: Option<seq<string>>, filter: string -> bool): (r: seq<string>)
    ensures entries.None? ==> r == []
    ensures Sorted(r)
    ensures entries.Some? ==> multiset(r) == multiset(Kept(dirName, entries.value, filter))
  {
    match entries
    case None => []
    case Some(names) => Sort(Kept(dirName, names, filter))
  }

  function LottieFiles(dirName: string, entries: Option<seq<string>>): seq<string> {
    ExtractFiles(dirName, entries, JsonFile)
  }

  function SvgFiles(dirName: string, entries: Option<seq<string>>): seq<string> {
    ExtractFiles(dirName, entries, SvgFile)
  }

  /** A path is listed exactly when it is the directory name followed by an accepted entry. */
  lemma ExtractFilesMembers(dirName: string, entries: seq<string>, filter: string -> bool, p: string)
    ensures p in ExtractFiles(dirName, Some(entries), filter) <==>
              exists n :: n in entries && filter(n) && p == dirName + n
  {
    var r := ExtractFiles(dirName, Some(entries), filter);
    KeptMembers(dirName, entries, filter, p);
    assert p in r <==> p in multiset(r);
  }

  /** The listing does not depend on the order the directory stream yields the entries in. */
  lemma ExtractFilesIgnoresEntryOrder(dirName: string, a: seq<string>, b: seq<string>, filter: string -> bool)
    requires multiset(a) == multiset(b)
    ensures ExtractFiles(dirName, Some(a), filter) == ExtractFiles(dirName, Some(b), filter)
  {
    KeptPermutation(dirName, a, b, filter);
    SortIgnoresInputOrder(Kept(dirName, a, filter), Kept(dirName, b, filter));
  }

  /** No entry occurs twice, as in the entries a directory stream yields. */
  predicate NoDuplicates(s: seq<string>) {
    forall p, q :: 0 <= p < q < |s| ==> s[p] != s[q]
  }

  lemma PrefixCancels(d: string, a: string, b: string)
    ensures d + a == d + b ==> a == b
  {
    assert (d + a)[|d|..] == a;
    assert (d + b)[|d|..] == b;
  }

  /** Distinct entries give distinct paths. */
  lemma {:induction false} KeptNoDuplicates(dirName: string, names: seq<string>, filter: string -> bool)
    requires NoDuplicates(names)
    ensures NoDuplicates(Kept(dirName, names, filter))
    decreases |names|
  {
    if |names| > 0 {
      var rest := names[1..];
      assert NoDuplicates(rest) by {
        forall p, q | 0 <= p < q < |rest|
          ensures rest[p] != rest[q]
        {
          assert rest[p] == names[p + 1] && rest[q] == names[q + 1];
        }
      }
      KeptNoDuplicates(dirName, rest, filter);
      var path := dirName + names[0];
      var tail := Kept(dirName, rest, filter);
      forall n | n in rest
        ensures path != dirName + n
      {
        var k :| 0 <= k < |rest| && rest[k] == n;
        assert names[k + 1] == n;
        PrefixCancels(dirName, names[0], n);
      }
      KeptMembers(dirName, rest, filter, path);
      assert path !in tail;
      forall q | 0 < q < |[path] + tail|
        ensures ([path] + tail)[q] != path
      {
        assert ([path] + tail)[q] == tail[q - 1];
      }
    }
  }

  /** A list without duplicates holds each element at most once. */
  lemma {:induction false} NoDuplicatesCount(s: seq<string>)
    requires NoDuplicates(s)
    ensures forall x :: multiset(s)[x] <= 1
    decreases |s|
  {
    if |s| > 0 {
      var rest := s[1..];
      assert NoDuplicates(rest) by {
        forall p, q | 0 <= p < q < |rest|
          ensures rest[p] != rest[q]
        {
          assert rest[p] == s[p + 1] && rest[q] == s[q + 1];
        }
      }
      NoDuplicatesCount(rest);
      assert s == [s[0]] + rest;
      forall k | 0 <= k < |rest|
        ensures rest[k] != s[0]
      {
        assert rest[k] == s[k + 1];
      }
      assert s[0] !in rest;
    }
  }

  /** Two positions holding the same element make it occur twice. */
  lemma RepeatCounts(s: seq<string>, p: nat, q: nat)
    requires p < q < |s|
    ensures s[p] == s[q] ==> multiset(s)[s[q]] >= 2
  {
    assert s == s[..q] + s[q..];
    assert s[p] == s[..q][p];
    assert s[q] == s[q..][0];
  }

  /** A list holding each element at most once has no duplicates. */
  lemma CountNoDuplicates(s: seq<string>)
    requires forall x :: multiset(s)[x] <= 1
    ensures NoDuplicates(s)
  {
    forall p, q | 0 <= p < q < |s|
      ensures s[p] != s[q]
    {
      RepeatCounts(s, p, q);
    }
  }

  /** A directory stream without repeated names lists each path once. */
  lemma ExtractFilesNoDuplicates(dirName: string, entries: seq<string>, filter: string -> bool)
    requires NoDuplicates(entries)
    ensures NoDuplicates(ExtractFiles(dirName, Some(entries), filter))
  {
    KeptNoDuplicates(dirName, entries, filter);
    NoDuplicatesCount(Kept(dirName, entries, filter));
    CountNoDuplicates(ExtractFiles(dirName, Some(entries), filter));
  }
}

=== FILE: imagetest.dfy ===
/**
  `main` of imagetest.cpp: parse the command line, then run the Lottie
  phase and the SVG phase in the selected mode. Both phases write their
  baselines into the same file system, modelled as one `Store` threaded
  through them.
 */
module ImageTest {
  import opened Base
  import opened Text
  import opened Utils
  import opened Directory
  import opened Baseline
  import LottieTest
  import SvgTest
  import opened ArgParser
  import opened Report

  /** The four directories fixed at build time. */
  datatype Config = Config(
    lottieResources: string, lottieBaselines: string,
    svgResources: string, svgBaselines: string)

  /** What the harness reads from outside: the two directory listings and the two rendering engines. */
  datatype Environment = Environment(
    lottieEntries: Option<seq<string>>, svgEntries: Option<seq<string>>,
    player: LottieTest.Player, canvas: SvgTest.Canvas)

  /** The baselines after a phase, and the summary it printed if it tested. */
  datatype Phase = Phase(store: Store, summary: Option<Summary>)

  /** The `LottieTest` constructor: list, generate if asked, then test if asked. */
  function RunLottie(mode: TestMode, config: Config, env: Environment, store: Store): (r: Phase)
    ensures r.summary.Some? <==> Tests(mode)
    ensures !Generates(mode) ==> r.store == store
    ensures r.summary.Some? ==> r.summary.value.total == |LottieFiles(config.lottieResources, env.lottieEntries)|
    ensures r.summary.Some? ==>
              var files := LottieFiles(config.lottieResources, env.lottieEntries);
              (r.summary.value.failed == 0 <==>
                 forall p :: 0 <= p < |files| ==> LottieTest.Verify(r.store, config.lottieBaselines, env.player, files[p]) == [])
  {
    var files := LottieFiles(config.lottieResources, env.lottieEntries);
    var generated :=
      if Generates(mode) then LottieTest.GenerateAll(store, config.lottieBaselines, env.player, files)
      else store;
    var failed := LottieTest.TestFailures(generated, config.lottieBaselines, env.player, files);
    SummarizeAllPass(failed);
    var summary := if Tests(mode) then Some(Summarize(failed)) else None;
    Phase(generated, summary)
  }

  /**
    The `SVGTest` constructor: list, generate if asked, then test if asked.
    Testing rewrites every loadable file's baseline, so whatever the mode,
    the phase leaves the baselines exactly as generating them would.
   */
  function RunSvg(mode: TestMode, config: Config, env: Environment, store: Store): (r: Phase)
    ensures r.summary.Some? <==> Tests(mode)
    ensures r.store == SvgTest.GenerateAll(store, config.svgBaselines, env.canvas, SvgFiles(config.svgResources, env.svgEntries))
    ensures r.summary.Some? ==> r.summary.value.total == |SvgFiles(config.svgResources, env.svgEntries)|
    ensures r.summary.Some? ==>
              var files := SvgFiles(config.svgResources, env.svgEntries);
              (r.summary.value.failed == 0 <==> forall p :: 0 <= p < |files| ==> env.canvas.load(files[p]))
  {
    var files := SvgFiles(config.svgResources, env.svgEntries);
    var generated :=
      if Generates(mode) then SvgTest.GenerateAll(store, config.svgBaselines, env.canvas, files)
      else store;
    SvgTest.TestAllRewritesBaselines(generated, config.svgBaselines, env.canvas, files);
    SvgTest.GenerateAllTwice(store, config.svgBaselines, env.canvas, files);
    if Tests(mode) then
      var (failed, tested) := SvgTest.TestAll(generated, config.svgBaselines, env.canvas, files);
      SummarizeAllPass(failed);
      Phase(tested, Some(Summarize(failed)))
    else Phase(generated, None)
  }

  /** What a run of the program does. */
  datatype Outcome = Usage | Ran(lottie: Option<Summary>, svg: Option<Summary>, store: Store)

  /** `main`: usage only, or the Lottie phase followed by the SVG phase in the parsed mode. */
  function Main(args: seq<string>, config: Config, env: Environment, store: Store): Outcome {
    var opts := Parse(args);
    if opts.help then Usage
    else
      var mode := Mode(opts);
      var lottie := RunLottie(mode, config, env, store);
      var svg := RunSvg(mode, config, env, lottie.store);
      Ran(lottie.summary, svg.summary, svg.store)
  }

  /** The program only prints usage, touching no baseline, exactly when it has no arguments or a help option. */
  lemma MainUsageIff(args: seq<string>, config: Config, env: Environment, store: Store)
    ensures Main(args, config, env, store) == Usage <==> |args| < 2 || HelpIn(args, 1, |args|)
  {
    ParseHelpIff(args);
  }

  /** A directory name joined with distinct plain entries gives files with distinct base names. */
  lemma ListedBasenamesDistinct(dir: string, entries: seq<string>, filter: string -> bool)
    requires NoDuplicates(entries)
    requires forall n :: n in entries ==> SeparatorFree(n)
    ensures LottieTest.DistinctBasenames(ExtractFiles(dir, Some(entries), filter))
  {
    var files := ExtractFiles(dir, Some(entries), filter);
    ExtractFilesNoDuplicates(dir, entries, filter);
    forall p, q | 0 <= p < q < |files|
      ensures Basename(files[p]) != Basename(files[q])
    {
      ExtractFilesMembers(dir, entries, filter, files[p]);
      ExtractFilesMembers(dir, entries, filter, files[q]);
      var a :| a in entries && filter(a) && files[p] == dir + a;
      var b :| b in entries && filter(b) && files[q] == dir + b;
      BasenameOfAppended(dir, a);
      BasenameOfAppended(dir, b);
      PrefixCancels(Basename(dir), a, b);
    }
  }

  /**
    Without the separator-free hypothesis base names can collide: a file
    system whose names may hold `\` lists both `b.json` and `x\b.json`,
    and both files get the base name `b.json`, so their baselines share
    the names `b.json.<n>.png` and the later file overwrites the earlier.
   */
  lemma BackslashEntriesCollide(dir: string, entries: seq<string>)
    requires |dir| > 0 && dir[|dir| - 1] == '/'
    requires "b.json" in entries && "x\\b.json" in entries
    ensures var files := LottieFiles(dir, Some(entries));
            dir + "b.json" in files && dir + "x\\b.json" in files &&
            Basename(dir + "b.json") == Basename(dir + "x\\b.json") == "b.json"
  {
    JsonEntryListed(dir, entries, "b.json");
    JsonEntryListed(dir, entries, "x\\b.json");
    BackslashBasenames(dir);
  }

  /** An entry ending in `.json` after at least one other character is listed. */
  lemma JsonEntryListed(dir: string, entries: seq<string>, e: string)
    requires e in entries && |e| >= 6 && e[|e| - 5..] == ".json"
    ensures dir + e in LottieFiles(dir, Some(entries))
  {
    JsonFileIff(e);
    ExtractFilesMembers(dir, entries, JsonFile, dir + e);
  }

  /** The backslash in the second entry is a separator to `Basename`. */
  lemma BackslashBasenames(dir: string)
    requires |dir| > 0 && dir[|dir| - 1] == '/'
    ensures Basename(dir + "b.json") == "b.json"
    ensures Basename(dir + "x\\b.json") == "b.json"
  {
    var p := dir[..|dir| - 1];
    assert dir == p + ['/'];
    LastIndexInSplit(p, '/', "b.json", Separators);
    assert p + ['/'] + "b.json" == dir + "b.json";
    LastIndexInSplit(dir + "x", '\\', "b.json", Separators);
    assert dir + "x" + ['\\'] + "b.json" == dir + "x\\b.json";
  }

  /**
    In `Both` mode every listed animation that loads passes, provided the
    directory's entries are distinct names without separators: each
    animation's baselines are written under names no other animation uses.
   */
  lemma BothModeLottiePasses(args: seq<string>, config: Config, env: Environment, store: Store)
    requires !Parse(args).help && Mode(Parse(args)) == Both
    requires env.lottieEntries.Some? && NoDuplicates(env.lottieEntries.value)
    requires forall n :: n in env.lottieEntries.value ==> SeparatorFree(n)
    requires forall f :: f in LottieFiles(config.lottieResources, env.lottieEntries) ==> env.player.load(f).Some?
    ensures Main(args, config, env, store).Ran?
    ensures Main(args, config, env, store).lottie.Some?
    ensures Main(args, config, env, store).lottie.value.failed == 0
  {
    var files := LottieFiles(config.lottieResources, env.lottieEntries);
    ListedBasenamesDistinct(config.lottieResources, env.lottieEntries.value, JsonFile);
    var generated := LottieTest.GenerateAll(store, config.lottieBaselines, env.player, files);
    var failed := LottieTest.TestFailures(generated, config.lottieBaselines, env.player, files);
    forall p | 0 <= p < |files|
      ensures !failed[p]
    {
      LottieTest.GenerateAllThenVerify(store, config.lottieBaselines, env.player, files, p);
    }
    SummarizeAllPass(failed);
  }

  /**
    In `Test` mode against an empty baseline directory a listed animation
    passes only when it loads and has no frames, so every animation with a
    frame, and every one that fails to load, fails; a listed SVG file passes
    exactly when it loads, because the SVG test writes its baseline before
    comparing.
   */
  lemma TestModeWithoutBaselines(args: seq<string>, config: Config, env: Environment)
    requires !Parse(args).help && Mode(Parse(args)) == Test
    ensures Main(args, config, env, map[]).Ran?
    ensures Main(args, config, env, map[]).lottie.Some? && Main(args, config, env, map[]).svg.Some?
    ensures var files := LottieFiles(config.lottieResources, env.lottieEntries);
            Main(args, config, env, map[]).lottie.value.failed == 0 <==>
              forall p :: 0 <= p < |files| ==> env.player.load(files[p]) == Some(0)
    ensures var files := LottieFiles(config.lottieResources, env.lottieEntries);
            (forall p :: 0 <= p < |files| ==> env.player.load(files[p]) != Some(0)) ==>
              Main(args, config, env, map[]).lottie.value.failed == |files|
    ensures var files := SvgFiles(config.svgResources, env.svgEntries);
            Main(args, config, env, map[]).svg.value.failed == 0 <==>
              forall p :: 0 <= p < |files| ==> env.canvas.load(files[p])
  {
    var files := LottieFiles(config.lottieResources, env.lottieEntries);
    var failed := LottieTest.TestFailures(map[], config.lottieBaselines, env.player, files);
    forall p | 0 <= p < |files|
      ensures failed[p] <==> env.player.load(files[p]) != Some(0)
    {
      LottieTest.VerifyWithoutBaselines(config.lottieBaselines, env.player, files[p]);
    }
    CountFailedZero(failed);
    if forall p :: 0 <= p < |files| ==> env.player.load(files[p]) != Some(0) {
      CountFailedAll(failed);
    }
  }
}

=== FILE: lottie.dfy ===
/**
  `class LottieTest` of imagetest.cpp: rendering every frame of an
  animation into a baseline image (`GenerateBaselineImage`) and comparing
  fresh renderings against those baselines (`TestAgainstBaselineImage`).

  rlottie is replaced by a `Player`: `load` gives the frame count of an
  animation file, or `None` when the file cannot be loaded, and `render`
  gives the premultiplied ARGB buffer of one frame. Both are functions, so
  rendering is deterministic.
 */
module LottieTest {
  import opened Base
  import opened Utils
  import opened Baseline

  datatype Player = Player(load: string -> Option<nat>, render: (string, nat) -> Frame)

  /** Frame `i` of `file` as the harness stores and compares it: rendered, then converted to RGBA. */
  function FrameOf(player: Player, file: string, i: nat): Frame {
    Converted(player.render(file, i))
  }

  /** Writing `frame(i)` under `name(i)` for `i = k .. n-1`, in that order. */
  function WriteFrames(store: Store, name: nat -> string, frame: nat -> Frame, k: nat, n: nat): Store
    decreases n - k
  {
    if k >= n then store
    else WriteFrames(WritePng(store, name(k), frame(k)), name, frame, k + 1, n)
  }

  /** A name none of the frames is written under keeps its old contents. */
  lemma {:induction false} WriteFramesElsewhere(store: Store, name: nat -> string, frame: nat -> Frame, k: nat, n: nat, s: string)
    requires forall i :: k <= i < n ==> name(i) != s
    ensures s in WriteFrames(store, name, frame, k, n) <==> s in store
    ensures s in store ==> WriteFrames(store, name, frame, k, n)[s] == store[s]
    decreases n - k
  {
    if k < n {
      WriteFramesElsewhere(WritePng(store, name(k), frame(k)), name, frame, k + 1, n, s);
    }
  }

  /** A frame whose name no later frame reuses is found under that name. */
  lemma {:induction false} WriteFramesStores(store: Store, name: nat -> string, frame: nat -> Frame, k: nat, n: nat, i: nat)
    requires k <= i < n
    requires forall j :: i < j < n ==> name(j) != name(i)
    ensures name(i) in WriteFrames(store, name, frame, k, n)
    ensures WriteFrames(store, name, frame, k, n)[name(i)] == Image(ImageWidth, ImageHeight, 4, frame(i))
    decreases n - k
  {
    var written := WritePng(store, name(k), frame(k));
    if i == k {
      WriteFramesElsewhere(written, name, frame, k + 1, n, name(i));
    } else {
      WriteFramesStores(written, name, frame, k + 1, n, i);
    }
  }

  /** The baseline name of each frame of `file`. */
  function FrameNames(dir: string, file: string): nat -> string {
    (i: nat) => LottieKey(dir, file, i)
  }

  /** The converted rendering of each frame of `file`. */
  function Frames(player: Player, file: string): nat -> Frame {
    (i: nat) => FrameOf(player, file, i)
  }

  /** `GenerateBaselineImage`: an animation that fails to load writes nothing. */
  function Generate(store: Store, dir: string, player: Player, file: string): (r: Store)
    ensures player.load(file).None? ==> r == store
  {
    match player.load(file)
    case None => store
    case Some(n) => WriteFrames(store, FrameNames(dir, file), Frames(player, file), 0, n)
  }

  /** After generation, every frame of a loaded animation has a matching baseline. */
  lemma GenerateStoresFrame(store: Store, dir: string, player: Player, file: string, i: nat)
    requires player.load(file).Some? && i < player.load(file).value
    ensures !Mismatch(Generate(store, dir, player, file), LottieKey(dir, file, i), FrameOf(player, file, i))
  {
    var n := player.load(file).value;
    var name := FrameNames(dir, file);
    forall j | i < j < n
      ensures name(j) != name(i)
    {
      if name(j) == name(i) {
        LottieKeyInjective(dir, file, j, file, i);
      }
    }
    WriteFramesStores(store, name, Frames(player, file), 0, n, i);
  }

  /** Generation touches no name other than the baseline names of the animation's own frames. */
  lemma GenerateElsewhere(store: Store, dir: string, player: Player, file: string, s: string)
    requires player.load(file).Some? ==>
               forall i: nat :: i < player.load(file).value ==> s != LottieKey(dir, file, i)
    ensures s in Generate(store, dir, player, file) <==> s in store
    ensures s in store ==> Generate(store, dir, player, file)[s] == store[s]
  {
    if player.load(file).Some? {
      var n := player.load(file).value;
      WriteFramesElsewhere(store, FrameNames(dir, file), Frames(player, file), 0, n, s);
    }
  }

  predicate Increasing(s: seq<nat>) {
    forall p, q :: 0 <= p < q < |s| ==> s[p] < s[q]
  }

  /** The frames among `k .. n-1` for which `fails` holds, in increasing order. */
  function Failing(fails: nat -> bool, k: nat, n: nat): (r: seq<nat>)
    ensures forall p :: 0 <= p < |r| ==> k <= r[p] < n
    ensures Increasing(r)
    ensures forall i :: k <= i < n ==> (i in r <==> fails(i))
    decreases n - k
  {
    if k >= n then []
    else (if fails(k) then [k] else []) + Failing(fails, k + 1, n)
  }

  /** Whether `fails` holds for a frame decides alone whether it is listed. */
  lemma {:induction false} FailingDependsOnlyOnVerdicts(fails: nat -> bool, other: nat -> bool, k: nat, n: nat)
    requires forall i :: k <= i < n ==> fails(i) == other(i)
    ensures Failing(fails, k, n) == Failing(other, k, n)
    decreases n - k
  {
    if k < n {
      FailingDependsOnlyOnVerdicts(fails, other, k + 1, n);
    }
  }

  /** Whether frame `i` of `file` fails against the baselines in `store`. */
  function FrameFails(store: Store, dir: string, player: Player, file: string): nat -> bool {
    (i: nat) => Mismatch(store, LottieKey(dir, file, i), FrameOf(player, file, i))
  }

  /**
    `TestAgainstBaselineImage`: the failing frame numbers in increasing
    order, or the list `[1]` when the animation cannot be loaded.
   */
  function Verify(store: Store, dir: string, player: Player, file: string): (r: seq<nat>)
    ensures player.load(file).None? ==> r == [1]
    ensures player.load(file).Some? ==>
              var n := player.load(file).value;
              Increasing(r) && (forall p :: 0 <= p < |r| ==> r[p] < n) &&
              forall i :: 0 <= i < n ==>
                (i in r <==> Mismatch(store, LottieKey(dir, file, i), FrameOf(player, file, i)))
  {
    match player.load(file)
    case None => [1]
    case Some(n) => Failing(FrameFails(store, dir, player, file), 0, n)
  }

  /** A frame whose baseline was never written is reported. */
  lemma MissingBaselineFails(store: Store, dir: string, player: Player, file: string, i: nat)
    requires player.load(file).Some? && i < player.load(file).value
    requires LottieKey(dir, file, i) !in store
    ensures i in Verify(store, dir, player, file)
  {
  }

  /** A baseline of the wrong size is reported, whatever its pixels. */
  lemma WrongSizeFails(store: Store, dir: string, player: Player, file: string, i: nat)
    requires player.load(file).Some? && i < player.load(file).value
    requires LottieKey(dir, file, i) in store
    requires store[LottieKey(dir, file, i)].width != ImageWidth
    ensures i in Verify(store, dir, player, file)
  {
  }

  /** An increasing list whose members in `[0, n)` are exactly the frame 1 is the list `[1]`. */
  lemma OnlyFrameOne(r: seq<nat>, n: nat)
    requires Increasing(r) && 1 < n
    requires forall p :: 0 <= p < |r| ==> r[p] < n
    requires forall i :: 0 <= i < n ==> (i in r <==> i == 1)
    ensures r == [1]
  {
    forall p | 0 <= p < |r|
      ensures r[p] == 1
    {
      assert r[p] in r;
    }
    assert 1 in r;
    IncreasingStart(r);
  }

  /**
    The first two entries of an increasing list are in order. Stated as an
    implication so that callers can use it where the list is known to be
    short.
   */
  lemma IncreasingStart(r: seq<nat>)
    requires Increasing(r)
    ensures |r| > 1 ==> r[0] < r[1]
  {
  }

  /** The head of a non-empty list is a member of it. */
  lemma HeadIn(r: seq<nat>)
    ensures |r| > 0 ==> r[0] in r
  {
  }

  /**
    A test run whose only mismatching frame is frame 1 reports exactly
    what an animation that fails to load reports: the two outcomes cannot
    be told apart.
   */
  lemma LoadFailureLooksLikeFrameOne(store: Store, dir: string, player: Player, broken: Player, file: string)
    requires broken.load(file).None?
    requires player.load(file).Some? && 1 < player.load(file).value
    requires forall i :: 0 <= i < player.load(file).value ==>
               (Mismatch(store, LottieKey(dir, file, i), FrameOf(player, file, i)) <==> i == 1)
    ensures Verify(store, dir, player, file) == Verify(store, dir, broken, file) == [1]
  {
    OnlyFrameOne(Verify(store, dir, player, file), player.load(file).value);
  }

  /**
    Against an empty baseline directory an animation passes exactly when it
    loads and has no frames: a load failure reports `[1]`, and otherwise
    frame 0 has no baseline.
   */
  lemma VerifyWithoutBaselines(dir: string, player: Player, file: string)
    ensures Verify(map[], dir, player, file) == [] <==> player.load(file) == Some(0)
  {
    if player.load(file).Some? && player.load(file).value > 0 {
      MissingBaselineFails(map[], dir, player, file, 0);
    }
  }

  /** With no failing frame in range, the list is empty. */
  lemma NoneFailing(r: seq<nat>, n: nat)
    requires forall p :: 0 <= p < |r| ==> r[p] < n
    requires forall i :: 0 <= i < n ==> i !in r
    ensures r == []
  {
    HeadIn(r);
  }

  /** Verifying right after generating passes for every animation that loads. */
  lemma GenerateThenVerify(store: Store, dir: string, player: Player, file: string)
    requires player.load(file).Some?
    ensures Verify(Generate(store, dir, player, file), dir, player, file) == []
  {
    var n := player.load(file).value;
    var r := Verify(Generate(store, dir, player, file), dir, player, file);
    forall i | 0 <= i < n
      ensures i !in r
    {
      GenerateStoresFrame(store, dir, player, file, i);
    }
    NoneFailing(r, n);
  }

  /** Generating the baselines of one animation leaves the verdict on an animation with another base name unchanged. */
  lemma GenerateKeepsOtherVerdicts(store: Store, dir: string, player: Player, file: string, other: string)
    requires Basename(file) != Basename(other)
    ensures Verify(Generate(store, dir, player, file), dir, player, other) == Verify(store, dir, player, other)
  {
    if player.load(other).Some? {
      var r := Generate(store, dir, player, file);
      forall i: nat
        ensures FrameFails(r, dir, player, other)(i) == FrameFails(store, dir, player, other)(i)
      {
        var key := LottieKey(dir, other, i);
        forall j: nat
          ensures key != LottieKey(dir, file, j)
        {
          if key == LottieKey(dir, file, j) {
            LottieKeyInjective(dir, file, j, other, i);
          }
        }
        GenerateElsewhere(store, dir, player, file, key);
      }
      FailingDependsOnlyOnVerdicts(FrameFails(r, dir, player, other), FrameFails(store, dir, player, other),
                                   0, player.load(other).value);
    }
  }

  /** No two of `files` share a base name, so no two share a baseline name. */
  predicate DistinctBasenames(files: seq<string>) {
    forall p, q :: 0 <= p < q < |files| ==> Basename(files[p]) != Basename(files[q])
  }

  /** The generation loop of the `LottieTest` constructor, in list order. */
  function GenerateAll(store: Store, dir: string, player: Player, files: seq<string>): Store
    decreases |files|
  {
    if |files| == 0 then store
    else GenerateAll(Generate(store, dir, player, files[0]), dir, player, files[1..])
  }

  /** Generating other animations leaves an animation's verdict alone. */
  lemma {:induction false} GenerateAllKeepsOtherVerdicts(store: Store, dir: string, player: Player, files: seq<string>, other: string)
    requires forall p :: 0 <= p < |files| ==> Basename(files[p]) != Basename(other)
    ensures Verify(GenerateAll(store, dir, player, files), dir, player, other) == Verify(store, dir, player, other)
    decreases |files|
  {
    if |files| > 0 {
      GenerateKeepsOtherVerdicts(store, dir, player, files[0], other);
      GenerateAllKeepsOtherVerdicts(Generate(store, dir, player, files[0]), dir, player, files[1..], other);
    }
  }

  /**
    After the generation loop, every listed animation that loads passes its
    test, provided no two listed files share a base name.
   */
  lemma {:induction false} GenerateAllThenVerify(store: Store, dir: string, player: Player, files: seq<string>, p: nat)
    requires DistinctBasenames(files)
    requires p < |files| && player.load(files[p]).Some?
    ensures Verify(GenerateAll(store, dir, player, files), dir, player, files[p]) == []
    decreases |files|
  {
    var next := Generate(store, dir, player, files[0]);
    var rest := files[1..];
    assert GenerateAll(store, dir, player, files) == GenerateAll(next, dir, player, rest);
    if p == 0 {
      GenerateThenVerify(store, dir, player, files[0]);
      forall p' | 0 <= p' < |rest|
        ensures Basename(rest[p']) != Basename(files[0])
      {
        assert rest[p'] == files[p' + 1];
      }
      GenerateAllKeepsOtherVerdicts(next, dir, player, rest, files[0]);
    } else {
      assert rest[p - 1] == files[p];
      assert DistinctBasenames(rest) by {
        forall a, b | 0 <= a < b < |rest|
          ensures Basename(rest[a]) != Basename(rest[b])
        {
          assert rest[a] == files[a + 1] && rest[b] == files[b + 1];
        }
      }
      GenerateAllThenVerify(next, dir, player, rest, p - 1);
    }
  }

  /** The failure flag of each listed animation in the test loop: a non-empty frame list. */
  function TestFailures(store: Store, dir: string, player: Player, files: seq<string>): (failed: seq<bool>)
    ensures |failed| == |files|
    ensures forall p :: 0 <= p < |files| ==> (failed[p] <==> Verify(store, dir, player, files[p]) != [])
    decreases |files|
  {
    if |files| == 0 then []
    else [Verify(store, dir, player, files[0]) != []] + TestFailures(store, dir, player, files[1..])
  }
}

=== FILE: ordering.dfy ===
/**
  The order `std::sort` puts the listed paths in: `std::string`'s
  `operator<`, which compares character by character and puts a proper
  prefix first. Sorting is modelled by insertion sort; since the order is
  total on strings, every sorted rearrangement of a list is the same list,
  so the model's result is the one `std::sort` produces.
 */
module Ordering {

  /** `a < b` on `std::string`. */
  predicate Less(a: string, b: string)
    decreases |a|
  {
    if |a| == 0 then |b| > 0
    else if |b| == 0 then false
    else if a[0] != b[0] then a[0] < b[0]
    else Less(a[1..], b[1..])
  }

  predicate LessOrEqual(a: string, b: string) {
    !Less(b, a)
  }

  lemma {:induction false} LessIrreflexive(a: string)
    ensures !Less(a, a)
    decreases |a|
  {
    if |a| > 0 {
      LessIrreflexive(a[1..]);
    }
  }

  lemma {:induction false} LessTransitive(a: string, b: string, c: string)
    requires Less(a, b) && Less(b, c)
    ensures Less(a, c)
    decreases |a|
  {
    if |a| > 0 && a[0] == b[0] && b[0] == c[0] {
      LessTransitive(a[1..], b[1..], c[1..]);
    }
  }

  /** Two different strings are always ordered one way or the other. */
  lemma {:induction false} LessTrichotomous(a: string, b: string)
    ensures a == b || Less(a, b) || Less(b, a)
    decreases |a|
  {
    if |a| > 0 && |b| > 0 && a[0] == b[0] {
      LessTrichotomous(a[1..], b[1..]);
      if a[1..] == b[1..] {
        assert a == [a[0]] + a[1..];
        assert b == [b[0]] + b[1..];
      }
    }
  }

  lemma LessAsymmetric(a: string, b: string)
    requires Less(a, b)
    ensures !Less(b, a)
  {
    if Less(b, a) {
      LessTransitive(a, b, a);
      LessIrreflexive(a);
    }
  }

  lemma LessOrEqualTransitive(a: string, b: string, c: string)
    requires LessOrEqual(a, b) && LessOrEqual(b, c)
    ensures LessOrEqual(a, c)
  {
    if Less(c, a) {
      LessTrichotomous(a, b);
      if a == b {
      } else if Less(a, b) {
        LessTransitive(c, a, b);
      }
    }
  }

  lemma LessOrEqualAntisymmetric(a: string, b: string)
    requires LessOrEqual(a, b) && LessOrEqual(b, a)
    ensures a == b
  {
    LessTrichotomous(a, b);
  }

  /** Ascending order: no later element is smaller than an earlier one. */
  predicate Sorted(s: seq<string>) {
    forall i, j :: 0 <= i < j < |s| ==> LessOrEqual(s[i], s[j])
  }

  /** Insert `x` into the sorted list `s` in front of the first element not smaller than it. */
  function Insert(x: string, s: seq<string>): (r: seq<string>)
    requires Sorted(s)
    ensures Sorted(r)
    ensures multiset(r) == multiset(s) + multiset{x}
    decreases |s|
  {
    if |s| == 0 then [x]
    else if LessOrEqual(x, s[0]) then
      InsertFrontSorted(x, s);
      [x] + s
    else
      var rest := Insert(x, s[1..]);
      assert s == [s[0]] + s[1..];
      InsertBehindSorted(x, s, rest);
      [s[0]] + rest
  }

  lemma InsertFrontSorted(x: string, s: seq<string>)
    requires Sorted(s) && |s| > 0 && LessOrEqual(x, s[0])
    ensures Sorted([x] + s)
  {
    var r := [x] + s;
    forall i, j | 0 <= i < j < |r|
      ensures LessOrEqual(r[i], r[j])
    {
      if i == 0 && j > 1 {
        LessOrEqualTransitive(x, s[0], s[j - 1]);
      }
    }
  }

  lemma InsertBehindSorted(x: string, s: seq<string>, rest: seq<string>)
    requires Sorted(s) && |s| > 0 && !LessOrEqual(x, s[0])
    requires Sorted(rest)
    requires multiset(rest) == multiset(s[1..]) + multiset{x}
    ensures Sorted([s[0]] + rest)
  {
    var r := [s[0]] + rest;
    forall j | 0 < j < |r|
      ensures LessOrEqual(s[0], r[j])
    {
      var y := r[j];
      assert y == rest[j - 1];
      assert y in multiset(rest);
      if y == x {
        LessAsymmetric(s[0], x);
      } else {
        assert y in multiset(s[1..]);
        var k :| 0 <= k < |s[1..]| && s[1..][k] == y;
        assert s[k + 1] == y;
      }
    }
  }

  /** Insertion sort: an ascending rearrangement of `s`. */
  function Sort(s: seq<string>): (r: seq<string>)
    ensures Sorted(r)
    ensures multiset(r) == multiset(s)
    decreases |s|
  {
    if |s| == 0 then []
    else
      assert s == [s[0]] + s[1..];
      Insert(s[0], Sort(s[1..]))
  }

  /** A list holds at most one ascending arrangement of its elements. */
  lemma {:induction false} SortedUnique(a: seq<string>, b: seq<string>)
    requires Sorted(a) && Sorted(b)
    requires multiset(a) == multiset(b)
    ensures a == b
    decreases |a|
  {
    assert |a| == |multiset(a)| == |multiset(b)| == |b|;
    if |a| > 0 {
      SortedSameHead(a, b);
      SameTails(a, b);
      SortedUnique(a[1..], b[1..]);
      assert a == [a[0]] + a[1..];
      assert b == [b[0]] + b[1..];
    }
  }

  /** Two ascending arrangements of the same elements start with the same element. */
  lemma SortedSameHead(a: seq<string>, b: seq<string>)
    requires Sorted(a) && Sorted(b) && |a| > 0 && |b| > 0
    requires multiset(a) == multiset(b)
    ensures a[0] == b[0]
  {
    assert a[0] in multiset(b);
    var k :| 0 <= k < |b| && b[k] == a[0];
    if k == 0 { LessIrreflexive(a[0]); }
    assert LessOrEqual(b[0], a[0]);
    assert b[0] in multiset(a);
    var m :| 0 <= m < |a| && a[m] == b[0];
    if m == 0 { LessIrreflexive(b[0]); }
    assert LessOrEqual(a[0], b[0]);
    LessOrEqualAntisymmetric(a[0], b[0]);
  }

  lemma SameTails(a: seq<string>, b: seq<string>)
    requires |a| > 0 && |b| > 0 && a[0] == b[0]
    requires multiset(a) == multiset(b)
    ensures multiset(a[1..]) == multiset(b[1..])
  {
    assert a == [a[0]] + a[1..];
    assert b == [b[0]] + b[1..];
    assert multiset(a[1..]) == multiset(a) - multiset{a[0]};
    assert multiset(b[1..]) == multiset(b) - multiset{b[0]};
  }

  /** Whatever order the elements arrive in, sorting gives the same list. */
  lemma SortIgnoresInputOrder(s: seq<string>, t: seq<string>)
    requires multiset(s) == multiset(t)
    ensures Sort(s) == Sort(t)
  {
    SortedUnique(Sort(s), Sort(t));
  }
}

=== FILE: report.dfy ===
/**
  The closing line of each test phase: `Total TestCase`, `Passed` and
  `Failed`. `FailedTestCase` counts the failing files and `Passed` is
  computed as `list.size() - FailedTestCase` in `size_t` arithmetic, which
  is modular.
 */
module Report {
  datatype Summary = Summary(total: nat, passed: nat, failed: nat)

  /** The number of values a 64-bit `size_t` can hold. */
  const SizeRange: nat := 0x1_0000_0000_0000_0000

  /** How many of the flags are raised: the final value of `FailedTestCase`. */
  function CountFailed(failed: seq<bool>): (n: nat)
    ensures n <= |failed|
    decreases |failed|
  {
    if |failed| == 0 then 0
    else (if failed[0] then 1 else 0) + CountFailed(failed[1..])
  }

  /** Counting over two lists is adding the counts. */
  lemma {:induction false} CountFailedAppend(a: seq<bool>, b: seq<bool>)
    ensures CountFailed(a + b) == CountFailed(a) + CountFailed(b)
    decreases |a|
  {
    if |a| > 0 {
      assert (a + b)[1..] == a[1..] + b;
      CountFailedAppend(a[1..], b);
    } else {
      assert a + b == b;
    }
  }

  /** No failure is counted exactly when no flag is raised. */
  lemma {:induction false} CountFailedZero(failed: seq<bool>)
    ensures CountFailed(failed) == 0 <==> forall p :: 0 <= p < |failed| ==> !failed[p]
    decreases |failed|
  {
    if |failed| > 0 {
      CountFailedZero(failed[1..]);
      assert forall p :: 1 <= p < |failed| ==> failed[p] == failed[1..][p - 1];
    }
  }

  /** Every flag raised: every file is counted. */
  lemma {:induction false} CountFailedAll(failed: seq<bool>)
    requires forall p :: 0 <= p < |failed| ==> failed[p]
    ensures CountFailed(failed) == |failed|
    decreases |failed|
  {
    if |failed| > 0 {
      CountFailedAll(failed[1..]);
    }
  }

  /**
    The summary printed for a list of per-file failure flags. The
    subtraction is done modulo 2^64 as `size_t` does; it never wraps, since
    the failures are among the files.
   */
  function Summarize(failed: seq<bool>): (s: Summary)
    ensures s.total == |failed| && s.failed == CountFailed(failed)
    ensures s.total < SizeRange ==> s.passed + s.failed == s.total
  {
    var f := CountFailed(failed);
    Summary(|failed|, (|failed| - f) % SizeRange, f)
  }

  /** All files pass exactly when the summary reports no failure. */
  lemma SummarizeAllPass(failed: seq<bool>)
    ensures Summarize(failed).failed == 0 <==> forall p :: 0 <= p < |failed| ==> !failed[p]
    ensures |failed| < SizeRange && Summarize(failed).failed == 0 ==> Summarize(failed).passed == |failed|
  {
    CountFailedZero(failed);
  }
}

=== FILE: svg.dfy ===
/**
  `class SVGTest` of imagetest.cpp: drawing each SVG file once into a
  baseline image and testing a fresh drawing against it.

  ThorVG is replaced by a `Canvas`: `load` says whether `Picture::load`
  succeeds on a file, and `draw` gives the canvas buffer after the picture
  has been pushed, drawn and synced. Unlike the Lottie path, the buffer is
  stored as drawn: no pixel-format conversion is applied.
 */
module SvgTest {
  import opened Baseline

  datatype Canvas = Canvas(load: string -> bool, draw: string -> Frame)

  /** `GenerateBaselineImage`: a file that loads is drawn and written under its baseline name. */
  function Generate(store: Store, dir: string, canvas: Canvas, file: string): (r: Store)
    ensures !canvas.load(file) ==> r == store
    ensures canvas.load(file) ==> !Mismatch(r, SvgKey(dir, file), canvas.draw(file))
    ensures AgreeOutside(r, store, {SvgKey(dir, file)})
  {
    if !canvas.load(file) then store
    else WritePng(store, SvgKey(dir, file), canvas.draw(file))
  }

  /** What `TestAgainstBaselineImage` returns, and the baseline store it leaves behind. */
  datatype Verdict = Verdict(pass: bool, store: Store)

  /**
    `TestAgainstBaselineImage` as written: after drawing, the routine first
    WRITES the drawing under the baseline name and only then loads that
    name and compares it with the drawing. So the test cannot fail on a
    file that loads: its verdict is exactly whether the file loads, whatever
    the stored baseline held.
   */
  function Verify(store: Store, dir: string, canvas: Canvas, file: string): (v: Verdict)
    ensures v.pass <==> canvas.load(file)
    ensures !canvas.load(file) ==> v.store == store
  {
    if !canvas.load(file) then Verdict(false, store)
    else
      var written := WritePng(store, SvgKey(dir, file), canvas.draw(file));
      Verdict(!Mismatch(written, SvgKey(dir, file), canvas.draw(file)), written)
  }

  /** In particular a missing baseline passes, and so does a different one. */
  lemma MissingBaselinePasses(store: Store, dir: string, canvas: Canvas, file: string)
    requires canvas.load(file)
    requires SvgKey(dir, file) !in store
    ensures Verify(store, dir, canvas, file).pass
  {
  }

  /** The verdict does not depend on the baselines at all. */
  lemma VerdictIgnoresBaselines(a: Store, b: Store, dir: string, canvas: Canvas, file: string)
    ensures Verify(a, dir, canvas, file).pass == Verify(b, dir, canvas, file).pass
  {
  }

  /** Testing a file that loads overwrites its baseline with the fresh drawing, as generation would. */
  lemma VerifyOverwritesBaseline(store: Store, dir: string, canvas: Canvas, file: string)
    ensures Verify(store, dir, canvas, file).store == Generate(store, dir, canvas, file)
  {
  }

  /** Generation followed by a test passes for every file that loads. */
  lemma GenerateThenVerify(store: Store, dir: string, canvas: Canvas, file: string)
    requires canvas.load(file)
    ensures Verify(Generate(store, dir, canvas, file), dir, canvas, file).pass
  {
  }

  /** The generation loop of the `SVGTest` constructor, in list order. */
  function GenerateAll(store: Store, dir: string, canvas: Canvas, files: seq<string>): Store
    decreases |files|
  {
    if |files| == 0 then store
    else GenerateAll(Generate(store, dir, canvas, files[0]), dir, canvas, files[1..])
  }

  /** The baseline one file's generation writes: its drawing under its key if it loads, nothing otherwise. */
  function Drawing(dir: string, canvas: Canvas, file: string): Store {
    if canvas.load(file) then WritePng(map[], SvgKey(dir, file), canvas.draw(file)) else map[]
  }

  /** The baselines the generation loop writes, a later file winning a shared key. */
  function Drawings(dir: string, canvas: Canvas, files: seq<string>): Store
    decreases |files|
  {
    if |files| == 0 then map[]
    else Drawing(dir, canvas, files[0]) + Drawings(dir, canvas, files[1..])
  }

  /** Generating one file overrides the store with its drawing. */
  lemma GenerateOverrides(store: Store, dir: string, canvas: Canvas, file: string)
    ensures Generate(store, dir, canvas, file) == store + Drawing(dir, canvas, file)
  {
    if canvas.load(file) {
      var key, image := SvgKey(dir, file), Image(ImageWidth, ImageHeight, 4, canvas.draw(file));
      assert Drawing(dir, canvas, file) == map[key := image];
      assert store + map[key := image] == store[key := image];
    } else {
      assert store + map[] == store;
    }
  }

  /** Overriding a store twice in a row is overriding it once with the combined map. */
  lemma OverrideTwice(a: Store, b: Store, c: Store)
    ensures (a + b) + c == a + (b + c)
  {
  }

  /** The generation loop overrides the store with the drawings, and leaves every other baseline alone. */
  lemma {:induction false} GenerateAllOverrides(store: Store, dir: string, canvas: Canvas, files: seq<string>)
    ensures GenerateAll(store, dir, canvas, files) == store + Drawings(dir, canvas, files)
    decreases |files|
  {
    if |files| > 0 {
      var first := Drawing(dir, canvas, files[0]);
      GenerateOverrides(store, dir, canvas, files[0]);
      GenerateAllOverrides(store + first, dir, canvas, files[1..]);
      OverrideTwice(store, first, Drawings(dir, canvas, files[1..]));
    }
  }

  /** Running the generation loop a second time changes nothing. */
  lemma GenerateAllTwice(store: Store, dir: string, canvas: Canvas, files: seq<string>)
    ensures GenerateAll(GenerateAll(store, dir, canvas, files), dir, canvas, files) == GenerateAll(store, dir, canvas, files)
  {
    var w := Drawings(dir, canvas, files);
    GenerateAllOverrides(store, dir, canvas, files);
    GenerateAllOverrides(store + w, dir, canvas, files);
    OverrideTwice(store, w, w);
    assert w + w == w;
  }

  /** The test loop: each file's failure flag, and the store after every test has rewritten its baseline. */
  function TestAll(store: Store, dir: string, canvas: Canvas, files: seq<string>): (r: (seq<bool>, Store))
    ensures |r.0| == |files|
    ensures forall p :: 0 <= p < |files| ==> (r.0[p] <==> !canvas.load(files[p]))
    decreases |files|
  {
    if |files| == 0 then ([], store)
    else
      var v := Verify(store, dir, canvas, files[0]);
      var rest := TestAll(v.store, dir, canvas, files[1..]);
      var flags := [!v.pass] + rest.0;
      assert flags[0] <==> !canvas.load(files[0]);
      assert forall p :: 1 <= p < |files| ==> flags[p] == rest.0[p - 1] && files[p] == files[1..][p - 1];
      (flags, rest.1)
  }

  /**
    The test loop leaves the baseline directory exactly as the generation
    loop would: every file that loads has its baseline overwritten with its
    fresh drawing.
   */
  lemma {:induction false} TestAllRewritesBaselines(store: Store, dir: string, canvas: Canvas, files: seq<string>)
    ensures TestAll(store, dir, canvas, files).1 == GenerateAll(store, dir, canvas, files)
    decreases |files|
  {
    if |files| > 0 {
      VerifyOverwritesBaseline(store, dir, canvas, files[0]);
      TestAllRewritesBaselines(Generate(store, dir, canvas, files[0]), dir, canvas, files[1..]);
    }
  }
}

=== FILE: text.dfy ===
/**
  String primitives the harness borrows from the C library: searching for
  the last occurrence of a character (`strrchr`, `std::string::find_last_of`)
  and printing a frame number in decimal (`snprintf` with `%d`).
 */
module Text {
  import opened Base

  /** Position of the last character of `s` that belongs to `cs`, if any. */
  function LastIndexIn(s: string, cs: set<char>): (r: Option<nat>)
    ensures r.None? ==> forall i :: 0 <= i < |s| ==> s[i] !in cs
    ensures r.Some? ==> r.value < |s| && s[r.value] in cs
    ensures r.Some? ==> forall i :: r.value < i < |s| ==> s[i] !in cs
    decreases |s|
  {
    if |s| == 0 then None
    else if s[|s| - 1] in cs then Some(|s| - 1)
    else LastIndexIn(s[..|s| - 1], cs)
  }

  /** A member of `cs` with no member of `cs` after it is the last one. */
  lemma LastIndexInUnique(s: string, cs: set<char>, k: nat)
    requires k < |s| && s[k] in cs
    requires forall i :: k < i < |s| ==> s[i] !in cs
    ensures LastIndexIn(s, cs) == Some(k)
  {
  }

  /** Splitting at a separator followed only by non-separators finds that separator. */
  lemma LastIndexInSplit(p: string, c: char, q: string, cs: set<char>)
    requires c in cs
    requires forall i :: 0 <= i < |q| ==> q[i] !in cs
    ensures LastIndexIn(p + [c] + q, cs) == Some(|p|)
  {
    var s := p + [c] + q;
    var k := |p|;
    assert s[k] == c;
    assert s[k + 1..] == q;
    forall i | k < i < |s|
      ensures s[i] !in cs
    {
      assert s[i] == s[k + 1..][i - k - 1];
    }
    LastIndexInUnique(s, cs, k);
  }

  predicate IsDigit(c: char) {
    '0' <= c <= '9'
  }

  predicate AllDigits(s: string) {
    forall i :: 0 <= i < |s| ==> IsDigit(s[i])
  }

  function DigitChar(d: nat): (c: char)
    requires d < 10
    ensures IsDigit(c)
  {
    "0123456789"[d]
  }

  function DigitValue(c: char): (d: nat)
    requires IsDigit(c)
    ensures d < 10
  {
    (c as int - '0' as int) as nat
  }

  /** `snprintf(buf, n, "%d", n)` for a non-negative number: most significant digit first. */
  function Decimal(n: nat): (s: string)
    ensures |s| > 0
    ensures AllDigits(s)
    ensures s[0] == '0' ==> n == 0
    decreases n
  {
    if n < 10 then [DigitChar(n)]
    else Decimal(n / 10) + [DigitChar(n % 10)]
  }

  /** The number a string of decimal digits denotes. */
  function ParseDecimal(s: string): nat
    requires AllDigits(s)
    decreases |s|
  {
    if |s| == 0 then 0
    else ParseDecimal(s[..|s| - 1]) * 10 + DigitValue(s[|s| - 1])
  }

  /** Reading back a printed number gives the number. */
  lemma {:induction false} ParseDecimalOfDecimal(n: nat)
    ensures ParseDecimal(Decimal(n)) == n
    decreases n
  {
    var s := Decimal(n);
    if n < 10 {
      assert s[..0] == [];
    } else {
      ParseDecimalOfDecimal(n / 10);
      assert s[..|s| - 1] == Decimal(n / 10);
    }
  }

  /** Distinct frame numbers print differently. */
  lemma DecimalInjective(m: nat, n: nat)
    requires Decimal(m) == Decimal(n)
    ensures m == n
  {
    ParseDecimalOfDecimal(m);
    ParseDecimalOfDecimal(n);
  }
}

=== FILE: utils.dfy ===
/**
  `namespace Utils` of imagetest.cpp: the path helper `basename` and the
  pixel-format normaliser `ARGBPremulToRGBA`.
 */
module Utils {
  import opened Base
  import opened Text

  /** The two characters `basename` splits a path at. */
  const Separators: set<char> := {'/', '\\'}

  predicate SeparatorFree(s: string) {
    forall i :: 0 <= i < |s| ==> s[i] !in Separators
  }

  /**
    `str.substr(str.find_last_of("/\\") + 1)`: the longest suffix of the
    path without a separator. When there is none, `find_last_of` returns
    `npos`, and `npos + 1` wraps to 0, so the whole path is returned.
   */
  function Basename(path: string): (name: string)
    ensures SeparatorFree(name)
    ensures |name| <= |path| && path == path[..|path| - |name|] + name
    ensures |name| < |path| ==> path[|path| - |name| - 1] in Separators
  {
    match LastIndexIn(path, Separators)
    case None => path
    case Some(k) =>
      assert path == path[..k + 1] + path[k + 1..];
      path[k + 1..]
  }

  /** A path without separators is its own base name. */
  lemma BasenameOfPlainName(path: string)
    requires SeparatorFree(path)
    ensures Basename(path) == path
  {
  }

  /** Appending a separator-free entry to a path extends its base name by that entry. */
  lemma BasenameOfAppended(dirName: string, entry: string)
    requires SeparatorFree(entry)
    ensures Basename(dirName + entry) == Basename(dirName) + entry
  {
    var path := dirName + entry;
    match LastIndexIn(dirName, Separators)
    case None =>
      assert SeparatorFree(path) by {
        forall i | 0 <= i < |path|
          ensures path[i] !in Separators
        {
          if i < |dirName| {
            assert path[i] == dirName[i];
          } else {
            assert path[i] == entry[i - |dirName|];
          }
        }
      }
      BasenameOfPlainName(path);
    case Some(k) =>
      var tail := dirName[k + 1..] + entry;
      forall i | 0 <= i < |tail|
        ensures tail[i] !in Separators
      {
        if i < |dirName| - k - 1 {
          assert tail[i] == dirName[k + 1 + i];
        } else {
          assert tail[i] == entry[i - (|dirName| - k - 1)];
        }
      }
      LastIndexInSplit(dirName[..k], dirName[k], tail, Separators);
      assert dirName == dirName[..k] + [dirName[k]] + dirName[k + 1..];
      assert path == dirName[..k] + [dirName[k]] + tail;
      assert path[k + 1..] == tail;
  }

  /** A separator-free entry appended to a directory name ending in a separator is the entry's base name. */
  lemma BasenameOfJoined(dirName: string, entry: string)
    requires |dirName| > 0 && dirName[|dirName| - 1] in Separators
    requires SeparatorFree(entry)
    ensures Basename(dirName + entry) == entry
  {
    var path := dirName + entry;
    LastIndexInSplit(dirName[..|dirName| - 1], dirName[|dirName| - 1], entry, Separators);
    assert dirName[..|dirName| - 1] + [dirName[|dirName| - 1]] + entry == path;
  }

  lemma BasenameExamples()
    ensures Basename("res/lottie/a.json") == "a.json"
    ensures Basename("C:\\res\\b.svg") == "b.svg"
    ensures Basename("dir/") == ""
  {
    LastIndexInSplit("res/lottie", '/', "a.json", Separators);
    assert "res/lottie" + ['/'] + "a.json" == "res/lottie/a.json";
    LastIndexInSplit("C:\\res", '\\', "b.svg", Separators);
    assert "C:\\res" + ['\\'] + "b.svg" == "C:\\res\\b.svg";
    LastIndexInSplit("dir", '/', "", Separators);
    assert "dir" + ['/'] + "" == "dir/";
  }

  // ---------------------------------------------------------------------
  // Pixel-format normaliser
  // ---------------------------------------------------------------------

  /** `uint32_t totalBytes = s.height() * s.bytesPerLine()`: the product truncated to 32 bits. */
  function TotalBytes(height: nat, bytesPerLine: nat): nat {
    (height * bytesPerLine) % Uint32Range
  }

  /**
    The number of 4-byte groups the loop `for (i = 0; i < totalBytes; i += 4)`
    visits: every group that starts below `totalBytes`.
   */
  function Groups(total: nat): (g: nat)
    ensures total <= 4 * g < total + 4
  {
    (total + 3) / 4
  }

  /**
    `(c * 255) / a` computed in `int` (both operands non-negative, so C's
    truncating division agrees with Dafny's) and stored into an
    `unsigned char`, which keeps it modulo 256.
   */
  function Unpremultiply(c: uint8, a: uint8): (r: uint8)
    requires a != 0
  {
    ((c as int * 255 / a as int) % ByteRange) as uint8
  }

  /** A premultiplied channel never exceeds its alpha; such a channel does not wrap. */
  lemma UnpremultiplyNoWrap(c: uint8, a: uint8)
    requires 0 < a && c <= a
    ensures Unpremultiply(c, a) as int == c as int * 255 / a as int
  {
    DivBelow(c as int * 255, a as int, 256);
  }

  /** A channel equal to its alpha becomes full intensity. */
  lemma UnpremultiplyFull(a: uint8)
    requires 0 < a
    ensures Unpremultiply(a, a) == 255
  {
    var d := a as int;
    assert d * 255 == 255 * d;
    assert (d * 255) / d == 255;
  }

  lemma DivBelow(x: nat, d: nat, k: nat)
    requires 0 < d && x < d * k
    ensures x / d < k
  {
    var q := x / d;
    assert d * q <= x;
    if q >= k {
      MulMonotone(d, k, q);
    }
  }

  lemma {:induction false} MulMonotone(d: nat, k: nat, q: nat)
    requires k <= q
    ensures d * k <= d * q
    decreases q - k
  {
    if k < q {
      MulMonotone(d, k, q - 1);
      assert d * q == d * (q - 1) + d;
    }
  }

  /** Half-transparent grey: 64 at alpha 128 becomes 127, by truncation. */
  lemma UnpremultiplyExample()
    ensures Unpremultiply(64, 128) == 127
  {
  }

  /** A channel above its alpha overflows the byte and wraps: 129 at alpha 128 becomes 0. */
  lemma UnpremultiplyWrapExample()
    ensures Unpremultiply(129, 128) == 0
  {
  }

  /**
    One 4-byte group `[b0, b1, b2, a]` after normalisation: untouched when
    fully transparent, bytes 0 and 2 swapped when opaque, otherwise swapped
    and un-premultiplied. The alpha byte is never written.
   */
  function NormalizePixel(b0: uint8, b1: uint8, b2: uint8, a: uint8): (p: seq<uint8>)
    ensures |p| == 4 && p[3] == a
  {
    if a == 0 then [b0, b1, b2, a]
    else if a == 255 then [b2, b1, b0, a]
    else [Unpremultiply(b2, a), Unpremultiply(b1, a), Unpremultiply(b0, a), a]
  }

  /** Group `q` (bytes `4q .. 4q+3`) of `buffer`, normalised. */
  function NormalizedGroup(buffer: seq<uint8>, q: nat): seq<uint8>
    requires 4 * q + 4 <= |buffer|
  {
    NormalizePixel(buffer[4 * q], buffer[4 * q + 1], buffer[4 * q + 2], buffer[4 * q + 3])
  }

  /** The first `g` groups of `buffer` normalised, the bytes after them as they were. */
  function NormalizeGroups(buffer: seq<uint8>, g: nat): (r: seq<uint8>)
    requires 4 * g <= |buffer|
    ensures |r| == |buffer|
    decreases g
  {
    if g == 0 then buffer
    else NormalizedGroup(buffer, 0) + NormalizeGroups(buffer[4..], g - 1)
  }

  /** The whole buffer after `ARGBPremulToRGBA` with `total` as `totalBytes`. */
  function Normalize(buffer: seq<uint8>, total: nat): (r: seq<uint8>)
    requires 4 * Groups(total) <= |buffer|
    ensures |r| == |buffer|
  {
    NormalizeGroups(buffer, Groups(total))
  }

  /** Each of the first `g` groups becomes its normalised form. */
  lemma {:induction false} NormalizeGroupsAt(buffer: seq<uint8>, g: nat, q: nat)
    requires 4 * g <= |buffer| && q < g
    ensures NormalizeGroups(buffer, g)[4 * q..4 * q + 4] == NormalizedGroup(buffer, q)
    decreases g
  {
    var rest := buffer[4..];
    var r := NormalizeGroups(buffer, g);
    assert r == NormalizedGroup(buffer, 0) + NormalizeGroups(rest, g - 1);
    if q > 0 {
      NormalizeGroupsAt(rest, g - 1, q - 1);
      assert r[4 * q..4 * q + 4] == NormalizeGroups(rest, g - 1)[4 * (q - 1)..4 * (q - 1) + 4];
      assert rest[4 * (q - 1)] == buffer[4 * q] && rest[4 * (q - 1) + 1] == buffer[4 * q + 1];
      assert rest[4 * (q - 1) + 2] == buffer[4 * q + 2] && rest[4 * (q - 1) + 3] == buffer[4 * q + 3];
    }
  }

  /** Normalising one more group appends it to the normalised prefix. */
  lemma {:induction false} NormalizeGroupsSnoc(buffer: seq<uint8>, g: nat)
    requires |buffer| == 4 * g + 4
    ensures NormalizeGroups(buffer, g + 1) == NormalizeGroups(buffer[..4 * g], g) + NormalizedGroup(buffer, g)
    decreases g
  {
    if g > 0 {
      var rest := buffer[4..];
      NormalizeGroupsSnoc(rest, g - 1);
      assert rest[..4 * (g - 1)] == buffer[..4 * g][4..];
      assert NormalizedGroup(rest, g - 1) == NormalizedGroup(buffer, g);
      assert NormalizedGroup(buffer[..4 * g], 0) == NormalizedGroup(buffer, 0);
    }
  }

  /** Normalising a prefix of groups does not look past them. */
  lemma {:induction false} NormalizeGroupsPrefix(buffer: seq<uint8>, g: nat)
    requires 4 * g <= |buffer|
    ensures NormalizeGroups(buffer, g) == NormalizeGroups(buffer[..4 * g], g) + buffer[4 * g..]
    decreases g
  {
    if g > 0 {
      var rest := buffer[4..];
      NormalizeGroupsPrefix(rest, g - 1);
      assert rest[..4 * (g - 1)] == buffer[..4 * g][4..];
      assert rest[4 * (g - 1)..] == buffer[4 * g..];
      assert NormalizedGroup(buffer[..4 * g], 0) == NormalizedGroup(buffer, 0);
    } else {
      assert buffer[..0] == [];
    }
  }

  /**
    `Utils::ARGBPremulToRGBA` on a surface of `height` rows of
    `bytesPerLine` bytes whose pixels start the array `bytes`. Like the C++
    function, it rewrites the pixel bytes in place.
   */
  method ARGBPremulToRGBA(bytes: array<uint8>, height: nat, bytesPerLine: nat)
    requires 4 * Groups(TotalBytes(height, bytesPerLine)) <= bytes.Length
    modifies bytes
    ensures bytes[..] == Normalize(old(bytes[..]), TotalBytes(height, bytesPerLine))
  {
    ghost var buffer := bytes[..];
    var total := TotalBytes(height, bytesPerLine);
    var i: nat := 0;
    ghost var q: nat := 0;
    while i < total
      invariant i == 4 * q && q <= Groups(total)
      invariant bytes[..] == NormalizeGroups(buffer, q)
    {
      GroupStep(buffer, q, bytes[..]);
      RewriteGroup(bytes, i);
      i := i + 4;
      q := q + 1;
    }
    GroupsExit(total, q);
  }

  /**
    The body of the loop of `ARGBPremulToRGBA` for the group at byte `i`:
    the colour bytes are read, converted according to the alpha byte and
    written back; no other byte changes.
   */
  method RewriteGroup(bytes: array<uint8>, i: nat)
    requires i + 4 <= bytes.Length
    modifies bytes
    ensures bytes[..] == old(bytes[..i]) + NormalizePixel(old(bytes[i]), old(bytes[i + 1]), old(bytes[i + 2]), old(bytes[i + 3])) + old(bytes[i + 4..])
  {
    ghost var before := bytes[..];
    var a := bytes[i + 3];
    if a != 0 {
      var r := bytes[i + 2];
      var g := bytes[i + 1];
      var b := bytes[i];
      if a != 255 {
        r := Unpremultiply(r, a);
        g := Unpremultiply(g, a);
        b := Unpremultiply(b, a);
        bytes[i] := r;
        bytes[i + 1] := g;
        bytes[i + 2] := b;
      } else {
        bytes[i] := r;
        bytes[i + 2] := b;
      }
    }
    assert bytes[..i] == before[..i];
    assert bytes[i + 4..] == before[i + 4..];
    assert bytes[i..i + 4] == NormalizePixel(before[i], before[i + 1], before[i + 2], before[i + 3]);
    assert bytes[..] == bytes[..i] + bytes[i..i + 4] + bytes[i + 4..];
  }

  /** Normalising one more group replaces exactly that group. */
  lemma NormalizeGroupsNext(buffer: seq<uint8>, q: nat)
    requires 4 * q + 4 <= |buffer|
    ensures NormalizeGroups(buffer, q)[4 * q..] == buffer[4 * q..]
    ensures NormalizeGroups(buffer, q + 1) ==
              NormalizeGroups(buffer, q)[..4 * q] + NormalizedGroup(buffer, q) + buffer[4 * q + 4..]
  {
    NormalizeGroupsPrefix(buffer, q);
    NormalizeGroupsPrefix(buffer, q + 1);
    NormalizeGroupsSnoc(buffer[..4 * q + 4], q);
    assert buffer[..4 * q + 4][..4 * q] == buffer[..4 * q];
    assert NormalizedGroup(buffer[..4 * q + 4], q) == NormalizedGroup(buffer, q);
  }

  /** One iteration of the loop: one more group is normalised. */
  lemma GroupStep(buffer: seq<uint8>, q: nat, before: seq<uint8>)
    requires 4 * q + 4 <= |buffer|
    requires before == NormalizeGroups(buffer, q)
    ensures before[..4 * q] +
              NormalizePixel(before[4 * q], before[4 * q + 1], before[4 * q + 2], before[4 * q + 3]) +
              before[4 * q + 4..] == NormalizeGroups(buffer, q + 1)
  {
    NormalizeGroupsNext(buffer, q);
    assert before[4 * q..][..4] == buffer[4 * q..][..4];
  }

  /** The loop stops after the last group that starts below `totalBytes`. */
  lemma GroupsExit(total: nat, q: nat)
    requires total <= 4 * q && q <= Groups(total)
    ensures q == Groups(total)
  {
  }

  /**
    Group `q` of the result: normalised when it starts below `totalBytes`,
    otherwise exactly as it was.
   */
  lemma NormalizeGroupOf(buffer: seq<uint8>, total: nat, q: nat)
    requires 4 * Groups(total) <= |buffer| && 4 * q + 4 <= |buffer|
    ensures 4 * q < total ==> Normalize(buffer, total)[4 * q..4 * q + 4] == NormalizedGroup(buffer, q)
    ensures total <= 4 * q ==> Normalize(buffer, total)[4 * q..4 * q + 4] == buffer[4 * q..4 * q + 4]
  {
    var g := Groups(total);
    if 4 * q < total {
      NormalizeGroupsAt(buffer, g, q);
    } else {
      NormalizeGroupsPrefix(buffer, g);
      var r := Normalize(buffer, total);
      var prefix := NormalizeGroups(buffer[..4 * g], g);
      assert r == prefix + buffer[4 * g..];
      assert |prefix| == 4 * g;
      assert g <= q;
      assert r[4 * q..4 * q + 4] == buffer[4 * g..][4 * q - 4 * g..4 * q + 4 - 4 * g];
      assert buffer[4 * g..][4 * q - 4 * g..4 * q + 4 - 4 * g] == buffer[4 * q..4 * q + 4];
    }
  }

  /** The alpha byte of every group is left as it was. */
  lemma NormalizeKeepsAlpha(buffer: seq<uint8>, total: nat, q: nat)
    requires 4 * Groups(total) <= |buffer| && 4 * q + 4 <= |buffer|
    ensures Normalize(buffer, total)[4 * q + 3] == buffer[4 * q + 3]
  {
    NormalizeGroupOf(buffer, total, q);
    var r := Normalize(buffer, total);
    assert r[4 * q + 3] == r[4 * q..4 * q + 4][3];
  }

  /** No byte after the last group starting below `totalBytes` is touched. */
  lemma NormalizeKeepsTail(buffer: seq<uint8>, total: nat)
    requires 4 * Groups(total) <= |buffer|
    ensures Normalize(buffer, total)[4 * Groups(total)..] == buffer[4 * Groups(total)..]
  {
    NormalizeGroupsPrefix(buffer, Groups(total));
  }

  /** A fully transparent group is left exactly as it was. */
  lemma NormalizeTransparent(buffer: seq<uint8>, total: nat, q: nat)
    requires 4 * Groups(total) <= |buffer| && 4 * q + 4 <= |buffer|
    requires buffer[4 * q + 3] == 0
    ensures Normalize(buffer, total)[4 * q..4 * q + 4] == buffer[4 * q..4 * q + 4]
  {
    NormalizeGroupOf(buffer, total, q);
  }

  /** A visited opaque group has bytes 0 and 2 exchanged and bytes 1 and 3 kept. */
  lemma NormalizeOpaque(buffer: seq<uint8>, total: nat, q: nat)
    requires 4 * Groups(total) <= |buffer| && 4 * q < total
    requires buffer[4 * q + 3] == 255
    ensures Normalize(buffer, total)[4 * q..4 * q + 4] ==
              [buffer[4 * q + 2], buffer[4 * q + 1], buffer[4 * q], buffer[4 * q + 3]]
  {
    NormalizeGroupOf(buffer, total, q);
  }

  /** A visited translucent group is un-premultiplied with bytes 0 and 2 exchanged. */
  lemma NormalizeTranslucent(buffer: seq<uint8>, total: nat, q: nat)
    requires 4 * Groups(total) <= |buffer| && 4 * q < total
    requires 0 < buffer[4 * q + 3] < 255
    ensures var a := buffer[4 * q + 3];
      Normalize(buffer, total)[4 * q..4 * q + 4] ==
        [Unpremultiply(buffer[4 * q + 2], a), Unpremultiply(buffer[4 * q + 1], a), Unpremultiply(buffer[4 * q], a), a]
  {
    NormalizeGroupOf(buffer, total, q);
  }

  /** On a fully transparent or fully opaque pixel the per-pixel transform is its own inverse. */
  lemma NormalizePixelInvolution(b0: uint8, b1: uint8, b2: uint8, a: uint8)
    requires a == 0 || a == 255
    ensures var p := NormalizePixel(b0, b1, b2, a); NormalizePixel(p[0], p[1], p[2], p[3]) == [b0, b1, b2, a]
  {
  }

  /**
    Normalising twice restores every fully transparent or fully opaque
    group: on those the transform is its own inverse.
   */
  lemma NormalizeTwiceRestoresExtremes(buffer: seq<uint8>, total: nat, q: nat)
    requires 4 * Groups(total) <= |buffer| && 4 * q + 4 <= |buffer|
    requires buffer[4 * q + 3] == 0 || buffer[4 * q + 3] == 255
    ensures Normalize(Normalize(buffer, total), total)[4 * q..4 * q + 4] == buffer[4 * q..4 * q + 4]
  {
    var once := Normalize(buffer, total);
    NormalizeGroupOf(buffer, total, q);
    NormalizeGroupOf(once, total, q);
    if 4 * q < total {
      var p := NormalizedGroup(buffer, q);
      assert once[4 * q] == p[0] && once[4 * q + 1] == p[1];
      assert once[4 * q + 2] == p[2] && once[4 * q + 3] == p[3];
      NormalizePixelInvolution(buffer[4 * q], buffer[4 * q + 1], buffer[4 * q + 2], buffer[4 * q + 3]);
    }
  }

  /** On a translucent pixel the transform is not idempotent: 64 at alpha 128 becomes 127, then 253. */
  lemma NormalizeTwiceChangesTranslucent()
    ensures Normalize([64, 64, 64, 128], 4) == [127, 127, 127, 128]
    ensures Normalize([127, 127, 127, 128], 4) == [253, 253, 253, 128]
  {
    assert Groups(4) == 1;
    assert [64, 64, 64, 128][4..] == [];
    assert [127, 127, 127, 128][4..] == [];
  }
}
